=== FILE: README.md ===
# Police bot core, modelled in Dafny

A Discord bot for a role-play police community. Its sequential logic is written
here as pure functions over plain data, with every chat-platform call replaced
by its outcome, passed in as a parameter. The model covers:

- **Arrest ledger** (`cogs/prisao.py`):
  - arrest records are stored as fenced JSON messages in a "database" channel;
  - the record set is rebuilt by scanning that channel, oldest message first,
    and only its oldest messages are read: 4000 for the period report and
    2000 for the ranking (`history(limit=..., oldest_first=True)`). Once the
    channel holds more messages than that, arrests registered later never
    appear in the report or the ranking (`Ledger.FetchIgnoresNewer`);
  - a submission is validated, then becomes a record;
  - the period report (`relatorio_periodo`) windows, aggregates and ranks arrests;
  - the ranking counts arrests in day/week/month/year buckets (`_calc_buckets`, `_build_rank_embed`).
- **Calendar helpers** (`utils/timeutils.py`):
  - `start_of_day`, `start_of_week`, `start_of_month`, `start_of_year`;
  - the "Z" fallback of `parse_iso`.

  Dates use a verified proleptic-Gregorian day count (`Civil`), identical to
  Python's `date.toordinal`.
- **Ticket-state machine** (`cogs/tickets.py`):
  - the map `channel id -> {opener_id, admin_id, last_user_ts, last_admin_ts}`;
  - its transitions: opening, taking a ticket, a message arriving, one reminder pass, closing;
  - channel-name derivation, the mute toggle, and the exoneration kick decision.
- **Admin panel** (`cogs/admin_panel.py`):
  - role and channel lookups in the JSON configuration;
  - the ADV (warning role) checks and the revocation list;
  - `kick_member`'s result mapping.
- **Admin check** (`utils/perm.py`): `is_admin_member` and `admin_only`.

Modules: `Wrappers` (Option/Result), `Civil` (dates), `PyValues` (decoded
JSON, `strip`, `isdigit`, `int()`, `str(int)`), `TimeUtils`, `Perm`,
`Platform` (platform-call outcomes), `Leaderboard` (per-officer counters,
sorting, top-N), `Ledger`, `Report`, `Ranking`, `Tickets`, `AdminPanel`.

Conventions:

- **Exceptions.** A Python exception that escapes a handler is an `Err`
  carrying a `PyError`: `.get` on a non-dict, a failing `int()`, date arithmetic
  past year 9999, or iterating a non-iterable. An exception the code catches
  becomes the branch it leads to.
- **JSON codec.** It is a parameter `JsonCodec(dumps, loads)`. The lemmas that
  need it assume `Ledger.Lawful`: `loads(dumps(d)) == d`, and `dumps` writes
  `{...}`.
- **`datetime.fromisoformat`.** It is a parameter `iso`, constrained by
  `TimeUtils.IsoLawful`:
  - `YYYY-MM-DD` is read as that midnight;
  - text with `/` or empty text is rejected;
  - `isoformat()` output reads back as itself.
- **Time.** All times are UTC. An instant is microseconds since
  0001-01-01 (`Civil.ToMicros`). Ticket timestamps are whole seconds.

## Model

| member | source | states |
|---|---|---|
| TimeUtils.StartOfDay | utils/timeutils.py:14-15 | midnight of the same date, not after the input and less than a day before it |
| TimeUtils.StartOfWeek | utils/timeutils.py:17-19 | a Monday midnight, 0 to 6 days before the date, not after `start_of_day`; the date arithmetic may cross a month or year |
| TimeUtils.StartOfMonth | utils/timeutils.py:21-22 | day 1 at midnight, same year and month, not after `start_of_day` |
| TimeUtils.StartOfYear | utils/timeutils.py:24-25 | January 1 at midnight of the same year, not after `start_of_month` |
| TimeUtils.TruncationsOrdered | utils/timeutils.py:14-25 | year start <= month start <= day start and week start <= day start |
| TimeUtils.StartOfDayIdempotent | utils/timeutils.py:14-15 | truncating to the day twice is truncating once |
| TimeUtils.StartOfWeekIdempotent | utils/timeutils.py:17-19 | truncating to the week twice is truncating once |
| TimeUtils.StartOfMonthIdempotent | utils/timeutils.py:21-22 | truncating to the month twice is truncating once |
| TimeUtils.StartOfYearIdempotent | utils/timeutils.py:24-25 | truncating to the year twice is truncating once |
| TimeUtils.StartOfWeekIsLatestMonday | utils/timeutils.py:17-19 | every Monday midnight not after the input is not after the week start (the week start is the latest one) |
| TimeUtils.MondayIsItsWeek | utils/timeutils.py:17-19 | a Monday midnight is its own week start |
| TimeUtils.ParseIso | utils/timeutils.py:8-12 | the direct parse when it succeeds; otherwise the parse of the text with every "Z" replaced by "+00:00"; text without "Z" gets the direct parse only |
| TimeUtils.ReplaceZ | utils/timeutils.py:12 | the result holds no "Z" and equals the input when the input has none |
| TimeUtils.PadValue | cogs/prisao.py:375-384 | the zero-padded digits of a date field read back as the field's value |
| TimeUtils.IsoFormatHasNoZ | cogs/prisao.py:256 | `isoformat()` text has no "Z", so the fallback never applies to it |
| Civil.FromOrdinalOfOrdinal | utils/timeutils.py:17-19 | day-number arithmetic (`timedelta(days=...)`) goes back to the same calendar date |
| Civil.OrdinalInjective | utils/timeutils.py:17-19 | two dates with the same day number are the same date |
| Civil.ToMicrosOrder | utils/timeutils.py:14-25 | an earlier day is an earlier instant, whatever the times of day |
| Perm.IsAdminMember | utils/perm.py:4-7 | the administrator permission is enough; without it, admin iff some held role id is listed |
| Perm.NoRolesOnlyAdministrators | utils/perm.py:7 | with no listed roles only administrators are admin |
| Perm.AdminMonotone | utils/perm.py:7 | listing more role ids never removes admin status |
| Perm.AdminOnly | utils/perm.py:9-13 | false outside a guild or for a non-member; otherwise the admin test |
| PyValues.StripIdempotent | cogs/prisao.py:23 | stripping twice is stripping once |
| PyValues.ParseIntOfDigits | cogs/prisao.py:232-235 | `int()` of a digit-only string is its decimal value, so the `int()` calls at lines 261-262 after these digit checks cannot raise |
| PyValues.ParseIntOfIntToString | cogs/tickets.py:560-561 | `int(str(n)) == n`, so an id put into a channel name reads back |
| PyValues.Set | cogs/prisao.py:41 | `d[k] = v` stores v under k and leaves every other key's value as it was |
| Ledger.Unfence | cogs/prisao.py:22-33 | the text handed to `loads` is stripped and no longer than the message |
| Ledger.UnfencePacked | cogs/prisao.py:18-33 | removing the fences from a packed payload gives back exactly the JSON text |
| Ledger.UnfenceBare | cogs/prisao.py:22-33 | unfenced JSON text passes through unchanged |
| Ledger.UnpackPack | cogs/prisao.py:18-33 | with a round-tripping codec, unpacking a packed record gives the record back |
| Ledger.ReadOne | cogs/prisao.py:39-42 | a decoded message raises iff it holds a truthy non-dict; a kept record is a dict of type "prisao" tagged with the message id |
| Ledger.ReadRecord | cogs/prisao.py:39-42 | a truthy non-dict raises; otherwise the message yields a record iff it decodes to a dict of type "prisao", and that record is the decoded dict tagged with the message id |
| Ledger.ScanDecoded | cogs/prisao.py:36-43 | at most one record per decoded message, every one of type "prisao"; `Ledger.ScanOne` and `Ledger.ScanAppend` fix the result exactly |
| Ledger.ScanOne | cogs/prisao.py:39-42 | one message raises iff it is a truthy non-dict; otherwise it adds its dict, tagged with its id, when the type is "prisao", and nothing else |
| Ledger.ScanAppend | cogs/prisao.py:36-43 | a run split in two scans iff both halves do, giving the first half's records followed by the second's, so the kept records come in history order |
| Ledger.ScanAll | cogs/prisao.py:36-43 | only records of type "prisao" are kept, at most one per message |
| Ledger.ScanAllOne | cogs/prisao.py:38-42 | one channel message raises iff it decodes to a truthy non-dict, and otherwise contributes its tagged "prisao" dict or nothing |
| Ledger.ScanAllAppend | cogs/prisao.py:36-43 | reading an older and a newer part of the history gives the older part's records, then the newer part's |
| Ledger.ScanFailsOnlyOnPoison | cogs/prisao.py:39-40 | the scan raises iff some message decodes to a truthy non-dict |
| Ledger.ScanFindsPacked | cogs/prisao.py:36-43 | every packed arrest record in the history is in the scan's result, tagged with its message id |
| Ledger.FetchRecords | cogs/prisao.py:36-43 | at most `limit` records |
| Ledger.FetchReadsOldest | cogs/prisao.py:36-38 | a history of at most `limit` messages is read whole; otherwise, when the whole history scans, the fetched records are the first ones of that scan |
| Ledger.FetchIgnoresNewer | cogs/prisao.py:36-38 | messages after the oldest `limit` never change what is fetched; with the report's limit of 4000 (the ranking's is 2000), arrests posted after that many messages of the channel are never counted |
| Ledger.Submit | cogs/prisao.py:229-266 | registered iff tempo and multa are digit-only and the channels are text channels; tempo is checked first, then multa |
| Ledger.SubmittedTempoReadsBack | cogs/prisao.py:232-262 | the stored `tempo` reads back with `int()` as the typed number |
| Ledger.ArrestReadsBack | cogs/prisao.py:254-266 | a registered record, tagged by the scan, reads back (as the report reads it at line 438) as its registration time and officer |
| Ledger.MissingTsIsUnreadable | cogs/prisao.py:438 | a record without "ts" has no readable time |
| Report.ParseUserDateTime | cogs/prisao.py:359-386 | empty or blank input is rejected; any parse is a valid date-time |
| Report.DateFormatsAgree | cogs/prisao.py:359-386 | `YYYY-MM-DD` and `DD/MM/YYYY` of the same date give the same result, which exists iff the date is valid |
| Report.ParseYmdText | cogs/prisao.py:366-378 | `YYYY-MM-DD` reads as that midnight (UTC) |
| Report.ParseDmyText | cogs/prisao.py:380-384 | `DD/MM/YYYY` reads as that midnight (UTC) |
| Report.PeriodStop | cogs/prisao.py:411-414 | a timed end stops one microsecond later; a date-only end stops at the next midnight; it overflows exactly at the last representable microsecond or day |
| Report.ReportPeriod | cogs/prisao.py:395-417 | a bad date on either side is reported; the overflow happens exactly when the stop is not representable; otherwise the start is the instant (or its midnight, without a time), and the period is rejected iff the stop is before it |
| Report.DateRangePeriod | cogs/prisao.py:404-417 | two dates without times cover the days from the first to the last, both included; they are rejected only when the last is more than a day before the first |
| Report.TimedPeriod | cogs/prisao.py:407-417 | two texts with times cover the instants from the start to the end, both included; overflow only at the last instant; rejected only when the end is more than a microsecond before the start |
| Report.OneDayPeriod | cogs/prisao.py:404-417 | the same date given as start and end covers, under the comparison of line 444, exactly the instants of that day |
| Report.OneDayWindow | cogs/prisao.py:404-417 | `DD/MM/YYYY` of the same date at both ends is the window from that midnight to one day later |
| Report.FilterWindow | cogs/prisao.py:435-445 | exactly the records with a readable time t where start <= t < stop are kept, each as many times as it occurs, so `len(filtered)` counts them |
| Report.Aggregate | cogs/prisao.py:452-466 | per-officer counts skip officer 0, equal each officer's arrests, and sum with the officer-0 arrests to the total; tempo and multa are summed |
| Report.AggregateFails | cogs/prisao.py:456 | aggregation raises iff some record's officer id fails `int()` |
| Report.SumOfAppend | cogs/prisao.py:459-466 | sums over concatenated record lists add up |
| Report.SummarizeWindow | cogs/prisao.py:435-468 | "no arrests" iff no record is inside the window; a summary totals the records inside, sums their tempo and multa, and lists up to 15 distinct non-zero officers with their arrest counts, largest first, none left out counting more and all listed when fewer than 15; it raises iff the aggregation does |
| Report.TopRanksArrests | cogs/prisao.py:452-468 | the first n entries of the per-officer counts list distinct non-zero officers with their arrests, largest first; an officer left out has no more arrests than anyone listed; with fewer than n listed nobody with arrests is left out |
| Report.PeriodReport | cogs/prisao.py:390-468 | the caller must be admin; for an admin, bad dates, an end before the start, an overflow and a bad database channel each get their answer exactly when they occur; otherwise the answer is the window's summary: the records inside counted, their tempo and multa summed, and the officers ranked by arrests (at most 15, largest first) |
| Report.RegisteredArrestIsReported | cogs/prisao.py:390-449 | an arrest registered inside the period, among the messages read, is never answered with "no arrests"; an admin gets a summary counting at least one arrest, unless an exception escapes |
| Leaderboard.Inc | cogs/prisao.py:458 | one officer's count goes up by one; all other counts stay the same (the same update is at line 521) |
| Leaderboard.SortDesc | cogs/prisao.py:468 | a permutation sorted by non-increasing count (the same sort is at line 496) |
| Leaderboard.SortDescStable | cogs/prisao.py:468 | the sort is stable: the entries with any one count keep their insertion order, which decides who is cut at `[:15]` (and at `[:10]`, line 496) |
| Leaderboard.Top | cogs/prisao.py:468 | `sorted(...)[:n]` (also line 496): at most n entries, sorted, drawn from the input, and nothing left out counts more than anything shown |
| Ranking.RecordTime | cogs/prisao.py:512-515 | an unreadable time is taken as now |
| Ranking.Bucket | cogs/prisao.py:511-530 | counts per officer (officer 0 skipped) of the records at or after the period start |
| Ranking.CalcBuckets | cogs/prisao.py:502-532 | the four buckets of one pass equal the day, week, month and year counts |
| Ranking.CountSinceMonotone | cogs/prisao.py:523-530 | an earlier period start never counts fewer arrests |
| Ranking.BucketsNested | cogs/prisao.py:502-532 | for every officer, day <= week and day <= month <= year |
| Ranking.UnreadableCountsEverywhere | cogs/prisao.py:512-530 | a record with an unreadable time adds one to its officer's day, week, month and year counts; `Ranking.Bucket` equals these counts for every officer but 0, whose entries are skipped |
| Ranking.RankSection | cogs/prisao.py:491-498 | an empty bucket shows "no records"; otherwise min(10, n) entries, largest first, drawn from the bucket, none left out counting more |
| Tickets.ChannelName | cogs/tickets.py:451 | at most 90 characters, no spaces, no upper-case letters (the same slug is used at line 561) |
| Tickets.ChannelNameFollowsSource | cogs/tickets.py:451 | the name keeps the length and characters of `f"{prefix}-{base}"`, lower-cased, with '-' for ' ', up to 90 |
| Tickets.SlugIdempotent | cogs/tickets.py:451 | deriving a name from a derived name changes nothing |
| Tickets.OpenTicket | cogs/tickets.py:424-511 | opened iff the bot may manage channels, the category is valid and creation succeeded; the new entry is (opener, 0, now, now) and no other entry changes |
| Tickets.OpenAlinhamento | cogs/tickets.py:516-611 | only an admin may open it; the target is the opener, the admin is already assigned, both timestamps are now, nothing else changes |
| Tickets.AssignTicket | cogs/tickets.py:615-619 | only `admin_id` of an existing entry changes; a missing entry is created with the given opener and both timestamps now |
| Tickets.AssignIdempotent | cogs/tickets.py:615-619 | taking a ticket again with the same admin changes nothing |
| Tickets.OnMessage | cogs/tickets.py:715-727 | the assigned admin's message sets only `last_admin_ts`; otherwise the opener's sets only `last_user_ts`; bots, DMs, other authors and untracked channels change nothing |
| Tickets.AssignedAdminMessage | cogs/tickets.py:723-724 | after taking a ticket (lines 615-619), the admin's message refreshes only the admin timestamp |
| Tickets.ReminderPass | cogs/tickets.py:697-712 | a ticket is reminded iff both ids are non-zero and one side has been idle strictly longer than the limit; reminded tickets get both timestamps set to now; nothing else changes |
| Tickets.SecondPassQuiet | cogs/tickets.py:697-712 | with a non-negative limit, a second pass at the same time reminds nobody and changes nothing |
| Tickets.UntakenNeverReminded | cogs/tickets.py:701-702 | a ticket without an admin is never reminded |
| Tickets.ReminderLoop | cogs/tickets.py:689-695 | no guild: nothing happens; the limit is `notify_after_minutes` (default 60) times 60 seconds; a non-dict section or a bad number raises |
| Tickets.CloseTicket | cogs/tickets.py:651-683 | only the closed channel's entry is removed; one DM per non-zero id among opener and admin, opener first, so an admin who took their own ticket gets two; an unknown channel notifies nobody; a non-text channel changes nothing |
| Tickets.CloseUndoesOpen | cogs/tickets.py:506-511 | closing (line 683) a freshly opened ticket restores the earlier state and notifies only the opener |
| Tickets.Notify | cogs/tickets.py:851-853 | user id 0 receives nothing |
| Tickets.ToggleMute | cogs/tickets.py:129-133 | view and history become allowed; sending is allowed iff it was explicitly denied before |
| Tickets.ToggleTwice | cogs/tickets.py:129-133 | after the first toggle, two more toggles give the same overwrite |
| Tickets.ExoneracaoKick | cogs/tickets.py:797-839 | the kick is tried only on the requester, only with kick permission, a non-zero id, a found member and a higher bot role (or administrator); removed iff that kick succeeded |
| Tickets.ApproveExoneracao | cogs/tickets.py:773-846 | the detail is never empty and is "OK" iff removed; the kick is tried on `solicitante_id` iff the bot may kick, the id is non-zero, the member is found and the bot outranks it (or is administrator); removed iff that kick succeeded; the requester is notified when non-zero |
| Tickets.GameIdIgnored | cogs/tickets.py:771-775 | the in-game "id" field never changes the outcome |
| Tickets.ExoneracaoRemovesWhenKickSucceeds | cogs/tickets.py:797-823 | a requester the bot outranks is removed exactly when the kick call succeeds |
| AdminPanel.AdminRoleIds | cogs/admin_panel.py:11-17 | the panel's own list when it is a non-empty list, otherwise the tickets section's list (default empty); conversion failures raise |
| AdminPanel.NoConfiguredAdminRoles | cogs/admin_panel.py:11-17 | with neither list configured there are no admin roles, so only administrators pass |
| AdminPanel.EmptyPanelListFallsBack | cogs/admin_panel.py:14-17 | an empty or missing panel list falls back to the tickets list |
| AdminPanel.IntList | cogs/admin_panel.py:15 | `[int(x) for x in items]` (also line 17) succeeds iff every item converts, and keeps order and values |
| AdminPanel.AdvRoleMap | cogs/admin_panel.py:20-30 | empty for a non-dict; otherwise exactly the keys with at least one value `int()` accepts, and, for a dict without repeated keys, each key maps to `int(v)` of its own value |
| AdminPanel.ConvertibleEntriesOfDict | cogs/admin_panel.py:24-29 | for a dict, each key keeps its converted value and keys whose value does not convert are dropped |
| AdminPanel.PunicaoChannelId | cogs/admin_panel.py:33-37 | 0 when the section is not a dict, the key is missing or the value does not convert; otherwise the converted value |
| AdminPanel.AdvApply | cogs/admin_panel.py:218-231 | refused iff the caller is not admin; for an admin, a bad id iff the id does not parse; then "not configured" iff the key's role id is 0, and otherwise it proceeds with the parsed id and that role id |
| AdminPanel.RevocationList | cogs/admin_panel.py:362-373 | only keys whose role id is non-zero and held by the member, at most one per map entry |
| AdminPanel.RevocationListComplete | cogs/admin_panel.py:364-373 | every configured, non-zero role the member holds is offered |
| AdminPanel.RevogarPuni | cogs/admin_panel.py:343-381 | refused iff the caller is not admin; then a bad id gets its answer, a member not found gets "not in the server", and any other lookup error escapes (`RevokeRaised`); for a found member the selector is offered iff the revocation list is non-empty, with "no ADV roles" iff it is empty |
| AdminPanel.OfferedRoleIsConfigured | cogs/admin_panel.py:362-409 | a key the list offers resolves to its non-zero role id when selected |
| AdminPanel.RevogarSelect | cogs/admin_panel.py:402-409 | refused iff the caller is not admin; for an admin, "not configured" iff the key's role id is 0, and otherwise the role with that id is removed |
| AdminPanel.KickMember | cogs/admin_panel.py:531-547 | (True, "OK") iff the member was found and the kick succeeded; a lookup NotFound is "ID não está no servidor"; any Forbidden is "Forbidden (permissão/hierarquia)"; every other error, including a NotFound from the kick itself, is "Erro: " and its type name |

## Left out

- **Platform calls.** Fetches, sends, edits, pins, deletes, DMs, embeds, views,
  modals, permission overwrites, kicks and role changes are left out. Their
  outcomes are parameters (`Platform`, `ChannelCreation`, `dbChannelOk`,
  `channelsOk`, and so on).
- **Posts around a state change.** The announcements after a ticket channel is
  created, the transcript and registry post in `close_ticket`, and the posts in
  `approve_exoneracao` are taken to succeed. In the source, one that raises ends
  the handler before its state change.
- **`_ticket_overwrites`, adding and removing ticket users, and the
  pre-condition checks of `toggle_mute`.** These are permission-overwrite
  objects and member lookups; only the overwrite flip is modelled.
- **Timers and async.** `tasks.loop` and async/await are left out: one loop
  iteration is one pure step taking `now`.
- **`utils/config.py` and `main.py`.** These are file I/O and bot bootstrap.
  The configuration is the decoded JSON value.
- **The JSON codec and the `datetime.fromisoformat` grammar.** Both are
  parameters, constrained by `Ledger.Lawful` and `TimeUtils.IsoLawful`.
- **Timezones.** Offsets, `astimezone`, and naive/aware comparison errors are
  left out: all times are UTC.
- **Float timestamps.** Ticket timestamps are integers (seconds), not float
  seconds.
- **Unicode.** `lower()`, `strip()` and `isdigit()` are modelled on ASCII only.
  Python's `isdigit` also accepts other Unicode digits.
- **Duplicate keys in decoded JSON.** A decoded JSON object is an association
  list, and `get` finds the first pair with the key. Python keeps the last
  value of a duplicated key.
- **Ticket state values.** Ticket state entries are always written with all
  four keys, so the `.get(..., 0)` defaults and `int()` conversions of
  `close_ticket`, `reminder_loop` and `on_message` are not modelled.
- **`str(...)` of a container.** `str(...)` of a list or dict read as a
  timestamp is treated as unreadable: that text starts with a bracket.
- **Python dict iteration order.** The reminder pass returns the set of
  reminded channels, not the order of the messages sent.
- **The revocation list and guild roles.** `guild.get_role` is taken to find
  every role the member holds.
- **The unhandled OverflowError at 9999-12-31.** This path is modelled as
  `Err(OverflowError)` and not treated as a bug of its own.
- **Perm.AdminOnly: the interaction's user type is an input.** The
  `isinstance(..., discord.Member)` test is therefore a constructor test.
- **JSON numbers with a fraction.** `Json` has no float case. `json.loads`
  gives a float for `1.5` or `2e3`, which `int()` truncates and whose `0.0` is
  falsy. Configuration values and record fields are taken to be integers,
  strings, lists or dicts.

=== FILE: adminpanel.dfy ===
/** cogs/admin_panel.py: configuration lookups with fallbacks and defensive
    `int` coercion, the ADV (warning role) checks, and the kick result mapping.
    The configuration is the decoded JSON object `cfg`. */
module AdminPanel {
  import opened Wrappers
  import opened PyValues
  import opened Perm
  import opened Platform

  // ---------------------------------------------------------------------
  // Integer lists
  // ---------------------------------------------------------------------

  /** What `for x in v` visits: a list's items, a dict's keys, a string's
      characters; anything else is not iterable. */
  function Elements(j: Json): (r: Option<seq<Json>>)
    ensures j.JList? ==> r == Some(j.items)
    ensures j.JNull? || j.JBool? || j.JInt? <==> r.None?
    ensures j.JObj? ==> r.Some? && |r.value| == |j.fields|
  {
    match j
    case JList(items) => Some(items)
    case JObj(fs) => Some(seq(|fs|, i requires 0 <= i < |fs| => JStr(fs[i].0)))
    case JStr(s) => Some(seq(|s|, i requires 0 <= i < |s| => JStr([s[i]])))
    case _ => None
  }

  /** `[int(x) for x in items]`: all items converted, or the first failure escapes. */
  function IntList(items: seq<Json>): (r: Option<seq<int>>)
    ensures r.Some? <==> forall i :: 0 <= i < |items| ==> PyInt(items[i]).Some?
    ensures r.Some? ==> |r.value| == |items| && forall i :: 0 <= i < |items| ==> PyInt(items[i]) == Some(r.value[i])
  {
    if |items| == 0 then Some([])
    else
      match IntList(items[..|items| - 1])
      case None =>
        InitFails(items, items[..|items| - 1]);
        None
      case Some(front) =>
        match PyInt(items[|items| - 1])
        case None => None
        case Some(n) =>
          Converted(items, front, n);
          Some(front + [n])
  }

  lemma InitFails(items: seq<Json>, init: seq<Json>)
    requires |items| > 0 && init == items[..|items| - 1]
    requires !forall i :: 0 <= i < |init| ==> PyInt(init[i]).Some?
    ensures !forall i :: 0 <= i < |items| ==> PyInt(items[i]).Some?
  {
    var i :| 0 <= i < |init| && PyInt(init[i]).None?;
    assert init[i] == items[i];
  }

  lemma Converted(items: seq<Json>, front: seq<int>, n: int)
    requires |items| > 0 && |front| == |items| - 1
    requires forall i :: 0 <= i < |front| ==> PyInt(items[..|items| - 1][i]) == Some(front[i])
    requires PyInt(items[|items| - 1]) == Some(n)
    ensures forall i :: 0 <= i < |items| ==> PyInt(items[i]) == Some((front + [n])[i])
  {
    forall i | 0 <= i < |items|
      ensures PyInt(items[i]) == Some((front + [n])[i])
    {
      if i < |front| {
        assert items[..|items| - 1][i] == items[i];
      }
    }
  }

  /** `[int(x) for x in v]` on any decoded value. */
  function IntsOf(j: Json): (r: Result<seq<int>, PyError>)
    ensures Elements(j).None? ==> r == Err(NotIterable)
    ensures j.JList? ==>
              (r.Ok? <==> IntList(j.items).Some?) && (r.Ok? ==> Some(r.value) == IntList(j.items))
    ensures r.Err? ==> r == Err(NotIterable) || r == Err(ConversionError)
  {
    match Elements(j)
    case None => Err(NotIterable)
    case Some(items) =>
      match IntList(items)
      case None => Err(ConversionError)
      case Some(ns) => Ok(ns)
  }

  // ---------------------------------------------------------------------
  // Admin roles
  // ---------------------------------------------------------------------

  /** `cfg.get(name, {})`, which must be a dict for the `.get` that follows. */
  function Section(cfg: Fields, name: string): (r: Result<Fields, PyError>)
    ensures Find(cfg, name).None? ==> r == Ok([])
    ensures Find(cfg, name).Some? && Find(cfg, name).value.JObj? ==> r == Ok(Find(cfg, name).value.fields)
    ensures r.Err? <==> Find(cfg, name).Some? && !Find(cfg, name).value.JObj?
  {
    match Get(cfg, name, JObj([]))
    case JObj(fs) => Ok(fs)
    case _ => Err(AttributeError)
  }

  /** `admin_panel.admin_role_ids` holds a non-empty list. */
  predicate PanelListsRoles(cfg: Fields) {
    && Section(cfg, "admin_panel").Ok?
    && Find(Section(cfg, "admin_panel").value, "admin_role_ids").Some?
    && Find(Section(cfg, "admin_panel").value, "admin_role_ids").value.JList?
    && |Find(Section(cfg, "admin_panel").value, "admin_role_ids").value.items| > 0
  }

  /** `_get_admin_role_ids`: the admin panel's own non-empty list, else the
      tickets section's list, else no roles. */
  function AdminRoleIds(cfg: Fields): (r: Result<seq<int>, PyError>)
    ensures Section(cfg, "admin_panel").Err? ==> r == Err(AttributeError)
    ensures PanelListsRoles(cfg) ==>
              var items := Find(Section(cfg, "admin_panel").value, "admin_role_ids").value.items;
              (r.Ok? <==> IntList(items).Some?) && (r.Ok? ==> Some(r.value) == IntList(items))
    ensures Section(cfg, "admin_panel").Ok? && !PanelListsRoles(cfg) ==>
              match Section(cfg, "tickets")
              case Err(e) => r == Err(e)
              case Ok(t) => r == IntsOf(Get(t, "admin_role_ids", JList([])))
  {
    match Section(cfg, "admin_panel")
    case Err(e) => Err(e)
    case Ok(ap) =>
      match Find(ap, "admin_role_ids")
      case Some(JList(items)) =>
        if |items| > 0 then
          match IntList(items)
          case None => Err(ConversionError)
          case Some(ns) => Ok(ns)
        else TicketsAdminRoleIds(cfg)
      case _ => TicketsAdminRoleIds(cfg)
  }

  /** The fallback: `cfg.get("tickets", {}).get("admin_role_ids", [])`. */
  function TicketsAdminRoleIds(cfg: Fields): Result<seq<int>, PyError> {
    match Section(cfg, "tickets")
    case Err(e) => Err(e)
    case Ok(t) => IntsOf(Get(t, "admin_role_ids", JList([])))
  }

  /** A configuration naming neither list has no admin roles, so only members
      with the administrator permission pass the admin check. */
  lemma NoConfiguredAdminRoles(cfg: Fields, m: Member)
    requires Find(cfg, "admin_panel").None? && Find(cfg, "tickets").None?
    ensures AdminRoleIds(cfg) == Ok([])
    ensures IsAdminMember(m, AdminRoleIds(cfg).value) <==> m.isAdministrator
  {
    NoRolesOnlyAdministrators(m);
  }

  /** An empty panel list is the same as a missing one: the tickets list is used. */
  lemma EmptyPanelListFallsBack(cfg: Fields, ap: Fields)
    requires Find(cfg, "admin_panel") == Some(JObj(ap))
    requires Find(ap, "admin_role_ids") == Some(JList([])) || Find(ap, "admin_role_ids").None?
    ensures AdminRoleIds(cfg) == TicketsAdminRoleIds(cfg)
  {
  }

  // ---------------------------------------------------------------------
  // ADV roles and the punishment channel
  // ---------------------------------------------------------------------

  /** Keys with duplicates removed, as in any Python dict. */
  predicate DistinctKeys(fs: Fields) {
    forall i, j :: 0 <= i < j < |fs| ==> fs[i].0 != fs[j].0
  }

  /** Some entry under `k` has a value `int` accepts. */
  predicate HasConvertible(fs: Fields, k: string) {
    exists i :: 0 <= i < |fs| && fs[i].0 == k && PyInt(fs[i].1).Some?
  }

  lemma HasConvertibleSnoc(fs: Fields)
    requires |fs| > 0
    ensures forall k :: HasConvertible(fs, k) <==>
              HasConvertible(fs[..|fs| - 1], k) || (fs[|fs| - 1].0 == k && PyInt(fs[|fs| - 1].1).Some?)
  {
    var front := fs[..|fs| - 1];
    forall k | HasConvertible(fs, k)
      ensures HasConvertible(front, k) || (fs[|fs| - 1].0 == k && PyInt(fs[|fs| - 1].1).Some?)
    {
      var i :| 0 <= i < |fs| && fs[i].0 == k && PyInt(fs[i].1).Some?;
      if i < |front| {
        assert front[i] == fs[i];
      }
    }
    forall k | HasConvertible(front, k)
      ensures HasConvertible(fs, k)
    {
      var i :| 0 <= i < |front| && front[i].0 == k && PyInt(front[i].1).Some?;
      assert fs[i] == front[i];
    }
  }

  /** The loop of `_get_adv_role_map`: `out[str(k)] = int(v)`, skipping
      entries whose value does not convert. */
  function ConvertibleEntries(fs: Fields): (r: Fields)
    ensures forall k :: Find(r, k).Some? ==> Find(r, k).value.JInt?
    ensures forall k :: Find(r, k).Some? <==> HasConvertible(fs, k)
  {
    if |fs| == 0 then []
    else
      var out := ConvertibleEntries(fs[..|fs| - 1]);
      HasConvertibleSnoc(fs);
      match PyInt(fs[|fs| - 1].1)
      case None => out
      case Some(n) => Set(out, fs[|fs| - 1].0, JInt(n))
  }

  /** For a dict, every key keeps its converted value, and every key whose value
      does not convert is dropped. */
  lemma {:induction false} ConvertibleEntriesOfDict(fs: Fields, i: int)
    requires DistinctKeys(fs)
    requires 0 <= i < |fs|
    ensures Find(ConvertibleEntries(fs), fs[i].0) ==
              match PyInt(fs[i].1)
              case None => None
              case Some(n) => Some(JInt(n))
  {
    var front := fs[..|fs| - 1];
    var out := ConvertibleEntries(front);
    var k := fs[i].0;
    if i == |fs| - 1 {
      assert forall j :: 0 <= j < |front| ==> front[j].0 != k;
      assert Find(out, k).None?;
    } else {
      assert front[i] == fs[i];
      assert k != fs[|fs| - 1].0;
      ConvertibleEntriesOfDict(front, i);
    }
  }

  /** `ConvertibleEntriesOfDict` for every key of the dict at once. */
  lemma ConvertibleEntriesOfAll(fs: Fields)
    ensures DistinctKeys(fs) ==>
              forall i :: 0 <= i < |fs| ==>
                Find(ConvertibleEntries(fs), fs[i].0) ==
                  match PyInt(fs[i].1)
                  case None => None
                  case Some(n) => Some(JInt(n))
  {
    if DistinctKeys(fs) {
      forall i | 0 <= i < |fs|
        ensures Find(ConvertibleEntries(fs), fs[i].0) ==
                  match PyInt(fs[i].1)
                  case None => None
                  case Some(n) => Some(JInt(n))
      {
        ConvertibleEntriesOfDict(fs, i);
      }
    }
  }

  /** `_get_adv_role_map`: ADV key -> role id, from `punicao.adv_role_ids`;
      empty when that is not a dict. */
  function AdvRoleMap(cfg: Fields): (r: Result<Fields, PyError>)
    ensures r.Err? <==> Section(cfg, "punicao").Err?
    ensures r.Ok? ==>
              var rm := Get(Section(cfg, "punicao").value, "adv_role_ids", JObj([]));
              && (!rm.JObj? ==> r.value == [])
              && (rm.JObj? ==> forall k :: Find(r.value, k).Some? <==> HasConvertible(rm.fields, k))
    ensures r.Ok? ==> forall k :: Find(r.value, k).Some? ==> Find(r.value, k).value.JInt?
    ensures r.Ok? ==>
              var rm := Get(Section(cfg, "punicao").value, "adv_role_ids", JObj([]));
              rm.JObj? && DistinctKeys(rm.fields) ==>
                forall i :: 0 <= i < |rm.fields| ==>
                  Find(r.value, rm.fields[i].0) ==
                    match PyInt(rm.fields[i].1)
                    case None => None
                    case Some(n) => Some(JInt(n))
  {
    match Section(cfg, "punicao")
    case Err(e) => Err(e)
    case Ok(p) =>
      match Get(p, "adv_role_ids", JObj([]))
      case JObj(fs) =>
        ConvertibleEntriesOfAll(fs);
        Ok(ConvertibleEntries(fs))
      case _ => Ok([])
  }

  /** `int(role_map.get(key, 0) or 0)` on a map `_get_adv_role_map` built. */
  function AdvRoleId(roleMap: Fields, key: string): (r: int)
    ensures Find(roleMap, key).None? ==> r == 0
    ensures forall n :: Find(roleMap, key) == Some(JInt(n)) ==> r == n
  {
    match Find(roleMap, key)
    case Some(JInt(n)) => n
    case _ => 0
  }

  /** `_get_punicao_channel_id`: every failure, including a section that is
      not a dict, reads as 0. */
  function PunicaoChannelId(cfg: Fields): (r: int)
    ensures Section(cfg, "punicao").Err? ==> r == 0
    ensures Section(cfg, "punicao").Ok? ==>
              var v := Find(Section(cfg, "punicao").value, "channel_punicao_id");
              && (v.None? ==> r == 0)
              && (v.Some? && PyInt(v.value).None? ==> r == 0)
              && (v.Some? && PyInt(v.value).Some? ==> r == PyInt(v.value).value)
  {
    match Section(cfg, "punicao")
    case Err(_) => 0
    case Ok(p) => PyInt(Get(p, "channel_punicao_id", JInt(0))).GetOr(0)
  }

  // ---------------------------------------------------------------------
  // Applying and revoking an ADV
  // ---------------------------------------------------------------------

  datatype AdvReply =
    | AdvNotAdmin
    | BadDiscordId
    | AdvNotConfigured
    | AdvProceed(targetId: int, roleId: int)

  /** The checks of `AdvModal.on_submit` before the member lookup: the caller
      must be admin, the id must parse, and the chosen ADV must have a role. */
  function AdvApply(cfg: Fields, caller: Member, idText: string, key: string): (r: Result<AdvReply, PyError>)
    ensures AdminRoleIds(cfg).Err? ==> r.Err?
    ensures r.Ok? && r.value.AdvProceed? ==>
              && AdminRoleIds(cfg).Ok? && IsAdminMember(caller, AdminRoleIds(cfg).value)
              && ParseInt(idText) == Some(r.value.targetId)
              && AdvRoleMap(cfg).Ok?
              && r.value.roleId == AdvRoleId(AdvRoleMap(cfg).value, key) && r.value.roleId != 0
    ensures AdminRoleIds(cfg).Ok? && IsAdminMember(caller, AdminRoleIds(cfg).value) && ParseInt(idText).Some? ==>
              match AdvRoleMap(cfg)
              case Err(e) => r == Err(e)
              case Ok(m) => (r == Ok(AdvNotConfigured) <==> AdvRoleId(m, key) == 0)
    ensures AdminRoleIds(cfg).Ok? ==> (r == Ok(AdvNotAdmin) <==> !IsAdminMember(caller, AdminRoleIds(cfg).value))
    ensures AdminRoleIds(cfg).Ok? && IsAdminMember(caller, AdminRoleIds(cfg).value) ==>
              (r == Ok(BadDiscordId) <==> ParseInt(idText).None?)
    ensures AdminRoleIds(cfg).Ok? && IsAdminMember(caller, AdminRoleIds(cfg).value) && ParseInt(idText).Some?
            && AdvRoleMap(cfg).Ok? && AdvRoleId(AdvRoleMap(cfg).value, key) != 0 ==>
              r == Ok(AdvProceed(ParseInt(idText).value, AdvRoleId(AdvRoleMap(cfg).value, key)))
  {
    match AdminRoleIds(cfg)
    case Err(e) => Err(e)
    case Ok(ids) =>
      if !IsAdminMember(caller, ids) then Ok(AdvNotAdmin)
      else
        match ParseInt(idText)
        case None => Ok(BadDiscordId)
        case Some(target) =>
          match AdvRoleMap(cfg)
          case Err(e) => Err(e)
          case Ok(m) =>
            var roleId := AdvRoleId(m, key);
            if roleId == 0 then Ok(AdvNotConfigured) else Ok(AdvProceed(target, roleId))
  }

  /** The `present` list of `RevogarPuniModal.on_submit`: in map order, the
      ADV keys whose role id is non-zero and held by the member. */
  function RevocationList(roleMap: Fields, memberRoles: seq<int>): (r: seq<(string, int)>)
    ensures |r| <= |roleMap|
    ensures forall e :: e in r ==> e.1 != 0 && e.1 in memberRoles && (e.0, JInt(e.1)) in roleMap
  {
    if |roleMap| == 0 then []
    else
      var front := RevocationList(roleMap[..|roleMap| - 1], memberRoles);
      var (k, v) := roleMap[|roleMap| - 1];
      if v.JInt? && v.i != 0 && v.i in memberRoles then front + [(k, v.i)] else front
  }

  /** Every configured, held ADV role is offered. */
  lemma {:induction false} RevocationListComplete(roleMap: Fields, memberRoles: seq<int>, i: int)
    requires 0 <= i < |roleMap|
    requires roleMap[i].1.JInt? && roleMap[i].1.i != 0 && roleMap[i].1.i in memberRoles
    ensures (roleMap[i].0, roleMap[i].1.i) in RevocationList(roleMap, memberRoles)
  {
    if i < |roleMap| - 1 {
      var front := roleMap[..|roleMap| - 1];
      assert front[i] == roleMap[i];
      RevocationListComplete(front, memberRoles, i);
    }
  }

  datatype RevokeReply =
    | RevokeNotAdmin
    | RevokeBadId
    | NotInServer
    | RevokeRaised(error: PlatformError)
    | NoAdvRoles
    | OfferRevocation(options: seq<(string, int)>)

  /** `RevogarPuniModal.on_submit`: admin check, id parse, member lookup (only
      NotFound is caught), then the list; an empty list offers no selector. */
  function RevogarPuni(cfg: Fields, caller: Member, idText: string, member: Result<seq<int>, PlatformError>)
    : (r: Result<RevokeReply, PyError>)
    ensures r.Ok? && r.value.OfferRevocation? ==>
              && |r.value.options| > 0
              && member.Ok? && AdvRoleMap(cfg).Ok?
              && r.value.options == RevocationList(AdvRoleMap(cfg).value, member.value)
    ensures r.Ok? && r.value == NoAdvRoles ==>
              member.Ok? && AdvRoleMap(cfg).Ok? && RevocationList(AdvRoleMap(cfg).value, member.value) == []
    ensures r.Ok? && (r.value.NoAdvRoles? || r.value.OfferRevocation?) ==>
              AdminRoleIds(cfg).Ok? && IsAdminMember(caller, AdminRoleIds(cfg).value) && ParseInt(idText).Some?
    ensures r.Ok? && r.value == NotInServer ==> member == Err(NotFound)
    ensures AdminRoleIds(cfg).Err? ==> r.Err?
    ensures AdminRoleIds(cfg).Ok? ==> (r == Ok(RevokeNotAdmin) <==> !IsAdminMember(caller, AdminRoleIds(cfg).value))
    ensures AdminRoleIds(cfg).Ok? && IsAdminMember(caller, AdminRoleIds(cfg).value) ==>
              (r == Ok(RevokeBadId) <==> ParseInt(idText).None?)
    ensures AdminRoleIds(cfg).Ok? && IsAdminMember(caller, AdminRoleIds(cfg).value) && ParseInt(idText).Some? ==>
              && (member == Err(NotFound) ==> r == Ok(NotInServer))
              && (member.Err? && member.error != NotFound ==> r == Ok(RevokeRaised(member.error)))
    ensures AdminRoleIds(cfg).Ok? && IsAdminMember(caller, AdminRoleIds(cfg).value) && ParseInt(idText).Some?
            && member.Ok? && AdvRoleMap(cfg).Ok? ==>
              && r.Ok? && (r.value.NoAdvRoles? || r.value.OfferRevocation?)
              && (r == Ok(NoAdvRoles) <==> RevocationList(AdvRoleMap(cfg).value, member.value) == [])
  {
    match AdminRoleIds(cfg)
    case Err(e) => Err(e)
    case Ok(ids) =>
      if !IsAdminMember(caller, ids) then Ok(RevokeNotAdmin)
      else if ParseInt(idText).None? then Ok(RevokeBadId)
      else
        match member
        case Err(NotFound) => Ok(NotInServer)
        case Err(e) => Ok(RevokeRaised(e))
        case Ok(roles) =>
          match AdvRoleMap(cfg)
          case Err(e) => Err(e)
          case Ok(m) =>
            var present := RevocationList(m, roles);
            if |present| == 0 then Ok(NoAdvRoles) else Ok(OfferRevocation(present))
  }

  /** A key offered for revocation resolves, in a map with distinct keys, to
      the role id it was offered with, so the selection step accepts it. */
  lemma OfferedRoleIsConfigured(roleMap: Fields, memberRoles: seq<int>, k: string, rid: int)
    requires DistinctKeys(roleMap)
    requires (k, rid) in RevocationList(roleMap, memberRoles)
    ensures AdvRoleId(roleMap, k) == rid && rid != 0
  {
    var i :| 0 <= i < |roleMap| && roleMap[i] == (k, JInt(rid));
    FindFirst(roleMap, i, k);
  }

  datatype SelectReply = SelectNotAdmin | SelectNotConfigured | RemoveRole(roleId: int)

  /** `RevogarSelect.callback` up to the member lookup: the caller must still be
      admin and the chosen key must still have a role. */
  function RevogarSelect(cfg: Fields, caller: Member, key: string): (r: Result<SelectReply, PyError>)
    ensures AdminRoleIds(cfg).Err? ==> r.Err?
    ensures r.Ok? && r.value.RemoveRole? ==>
              && AdminRoleIds(cfg).Ok? && IsAdminMember(caller, AdminRoleIds(cfg).value)
              && AdvRoleMap(cfg).Ok?
              && r.value.roleId == AdvRoleId(AdvRoleMap(cfg).value, key) && r.value.roleId != 0
    ensures AdminRoleIds(cfg).Ok? && IsAdminMember(caller, AdminRoleIds(cfg).value) && AdvRoleMap(cfg).Ok? ==>
              (r == Ok(SelectNotConfigured) <==> AdvRoleId(AdvRoleMap(cfg).value, key) == 0)
    ensures AdminRoleIds(cfg).Ok? ==> (r == Ok(SelectNotAdmin) <==> !IsAdminMember(caller, AdminRoleIds(cfg).value))
    ensures AdminRoleIds(cfg).Ok? && IsAdminMember(caller, AdminRoleIds(cfg).value) && AdvRoleMap(cfg).Err? ==> r.Err?
    ensures AdminRoleIds(cfg).Ok? && IsAdminMember(caller, AdminRoleIds(cfg).value)
            && AdvRoleMap(cfg).Ok? && AdvRoleId(AdvRoleMap(cfg).value, key) != 0 ==>
              r == Ok(RemoveRole(AdvRoleId(AdvRoleMap(cfg).value, key)))
  {
    match AdminRoleIds(cfg)
    case Err(e) => Err(e)
    case Ok(ids) =>
      if !IsAdminMember(caller, ids) then Ok(SelectNotAdmin)
      else
        match AdvRoleMap(cfg)
        case Err(e) => Err(e)
        case Ok(m) =>
          var roleId := AdvRoleId(m, key);
          if roleId == 0 then Ok(SelectNotConfigured) else Ok(RemoveRole(roleId))
  }

  // ---------------------------------------------------------------------
  // Kicking
  // ---------------------------------------------------------------------

  /** `kick_member`: `(ok, detail)`. A NotFound from the lookup means the id is
      not in the server; any Forbidden is reported as such; every other
      exception, including a NotFound raised by the kick itself, by type name. */
  function KickMember(lookup: MemberLookup, kick: CallResult): (r: (bool, string))
    ensures r.0 <==> lookup.Found? && kick.Done?
    ensures r.0 <==> r.1 == "OK"
    ensures lookup == LookupRaised(NotFound) ==> r == (false, "ID não está no servidor")
    ensures lookup == LookupRaised(Forbidden) || (lookup.Found? && kick == Raised(Forbidden)) ==>
              r == (false, "Forbidden (permissão/hierarquia)")
    ensures lookup.LookupRaised? && lookup.error != NotFound && lookup.error != Forbidden ==>
              r == (false, "Erro: " + TypeName(lookup.error))
    ensures lookup.Found? && kick.Raised? && kick.error != Forbidden ==>
              r == (false, "Erro: " + TypeName(kick.error))
  {
    match lookup
    case LookupRaised(NotFound) => (false, "ID não está no servidor")
    case LookupRaised(e) => (false, KickErrorDetail(e))
    case Found(_) =>
      match kick
      case Done => (true, "OK")
      case Raised(e) => (false, KickErrorDetail(e))
  }

  /** The two outer `except` clauses of `kick_member`. */
  function KickErrorDetail(e: PlatformError): (r: string)
    ensures r != "OK"
    ensures e.Forbidden? <==> r == "Forbidden (permissão/hierarquia)"
  {
    if e.Forbidden? then "Forbidden (permissão/hierarquia)"
    else
      var r := "Erro: " + TypeName(e);
      assert r[0] == 'E';
      r
  }
}

=== FILE: civil.dfy ===
/** Python's `datetime` reduced to what the bot uses: a proleptic-Gregorian
    civil date-time between year 1 and year 9999, its day ordinal (Python's
    `toordinal`, 0001-01-01 is day 1), the inverse conversion, the weekday and
    a microsecond instant used for every comparison. All values are UTC. */
module Civil {

  const MinYear: int := 1
  const MaxYear: int := 9999
  /** `date(9999, 12, 31).toordinal()` */
  const MaxOrdinal: int := 3652059
  const MicrosPerSecond: int := 1_000_000
  const MicrosPerDay: int := 86_400_000_000

  datatype DateTime = DateTime(year: int, month: int, day: int,
                               hour: int, minute: int, second: int, micro: int)

  predicate IsLeap(y: int) {
    y % 4 == 0 && (y % 100 != 0 || y % 400 == 0)
  }

  function DaysInYear(y: int): int {
    if IsLeap(y) then 366 else 365
  }

  function DaysInMonth(y: int, m: int): int
    requires 1 <= m <= 12
  {
    if m == 2 then (if IsLeap(y) then 29 else 28)
    else if m == 4 || m == 6 || m == 9 || m == 11 then 30
    else 31
  }

  predicate ValidDate(y: int, m: int, d: int) {
    MinYear <= y <= MaxYear && 1 <= m <= 12 && 1 <= d <= DaysInMonth(y, m)
  }

  predicate ValidTime(dt: DateTime) {
    0 <= dt.hour < 24 && 0 <= dt.minute < 60 && 0 <= dt.second < 60
    && 0 <= dt.micro < MicrosPerSecond
  }

  predicate Valid(dt: DateTime) {
    ValidDate(dt.year, dt.month, dt.day) && ValidTime(dt)
  }

  predicate IsMidnight(dt: DateTime) {
    dt.hour == 0 && dt.minute == 0 && dt.second == 0 && dt.micro == 0
  }

  function Midnight(y: int, m: int, d: int): DateTime {
    DateTime(y, m, d, 0, 0, 0, 0)
  }

  /** Days of year `y` before the first day of month `m`; month 13 stands for
      the end of the year (the table Python's datetime keeps). */
  function DaysBeforeMonth(y: int, m: int): int
    requires 1 <= m <= 13
  {
    var common :=
      if m == 1 then 0 else if m == 2 then 31 else if m == 3 then 59
      else if m == 4 then 90 else if m == 5 then 120 else if m == 6 then 151
      else if m == 7 then 181 else if m == 8 then 212 else if m == 9 then 243
      else if m == 10 then 273 else if m == 11 then 304 else if m == 12 then 334
      else 365;
    common + (if m > 2 && IsLeap(y) then 1 else 0)
  }

  /** Days before January 1 of year `y`, counted from 0001-01-01. */
  function DaysBeforeYear(y: int): int
    requires y >= 1
  {
    var p := y - 1;
    p * 365 + p / 4 - p / 100 + p / 400
  }

  function Ordinal(dt: DateTime): int
    requires ValidDate(dt.year, dt.month, dt.day)
  {
    DaysBeforeYear(dt.year) + DaysBeforeMonth(dt.year, dt.month) + dt.day
  }

  /** Python's `weekday()`: Monday is 0, Sunday is 6. */
  function Weekday(dt: DateTime): int
    requires ValidDate(dt.year, dt.month, dt.day)
  {
    (Ordinal(dt) + 6) % 7
  }

  function TimeMicros(dt: DateTime): int {
    ((dt.hour * 60 + dt.minute) * 60 + dt.second) * MicrosPerSecond + dt.micro
  }

  /** The instant of `dt` in microseconds; comparing instants is comparing date-times. */
  function ToMicros(dt: DateTime): int
    requires ValidDate(dt.year, dt.month, dt.day)
  {
    Ordinal(dt) * MicrosPerDay + TimeMicros(dt)
  }

  const MaxDateTime: DateTime := DateTime(MaxYear, 12, 31, 23, 59, 59, 999_999)

  // ---------------------------------------------------------------------
  // Calendar arithmetic facts
  // ---------------------------------------------------------------------

  lemma DaysBeforeMonthStep(y: int, m: int)
    requires 1 <= m <= 12
    ensures DaysBeforeMonth(y, m + 1) == DaysBeforeMonth(y, m) + DaysInMonth(y, m)
  {
  }

  /** Floor division by a positive constant steps by one exactly at multiples. */
  lemma DivStep(p: int, k: int)
    requires k == 4 || k == 100 || k == 400
    ensures (p + 1) / k == p / k + (if (p + 1) % k == 0 then 1 else 0)
  {
    var q := p / k;
    var r := p % k;
    assert p == k * q + r && 0 <= r < k;
    if r == k - 1 {
      assert p + 1 == k * (q + 1);
    } else {
      assert p + 1 == k * q + (r + 1);
    }
  }

  lemma LeapByRemainders(y: int)
    ensures DaysInYear(y) == 365 + (if y % 4 == 0 then 1 else 0)
                                 - (if y % 100 == 0 then 1 else 0)
                                 + (if y % 400 == 0 then 1 else 0)
  {
    if y % 400 == 0 {
      assert y == 400 * (y / 400);
      assert y == 100 * (4 * (y / 400));
      assert y == 4 * (100 * (y / 400));
    }
    if y % 100 == 0 {
      assert y == 100 * (y / 100);
      assert y == 4 * (25 * (y / 100));
    }
  }

  lemma DaysBeforeYearStep(y: int)
    requires y >= 1
    ensures DaysBeforeYear(y + 1) == DaysBeforeYear(y) + DaysInYear(y)
  {
    var p := y - 1;
    DivStep(p, 4);
    DivStep(p, 100);
    DivStep(p, 400);
    LeapByRemainders(y);
  }

  lemma {:induction false} DaysBeforeYearMonotone(a: int, b: int)
    requires 1 <= a <= b
    ensures DaysBeforeYear(a) + 365 * (b - a) <= DaysBeforeYear(b)
    decreases b - a
  {
    if a < b {
      DaysBeforeYearStep(a);
      DaysBeforeYearMonotone(a + 1, b);
    }
  }

  lemma MaxOrdinalValue()
    ensures DaysBeforeYear(MaxYear + 1) == MaxOrdinal
  {
  }

  /** Every valid date lies inside its own year's range of ordinals. */
  lemma OrdinalInYear(dt: DateTime)
    requires ValidDate(dt.year, dt.month, dt.day)
    ensures DaysBeforeYear(dt.year) < Ordinal(dt) <= DaysBeforeYear(dt.year + 1)
    ensures 1 <= Ordinal(dt) <= MaxOrdinal
  {
    DaysBeforeMonthStep(dt.year, dt.month);
    assert DaysBeforeMonth(dt.year, dt.month + 1) <= DaysInYear(dt.year);
    DaysBeforeYearStep(dt.year);
    DaysBeforeYearMonotone(1, dt.year);
    DaysBeforeYearMonotone(dt.year + 1, MaxYear + 1);
  }

  // ---------------------------------------------------------------------
  // From an ordinal back to a date
  // ---------------------------------------------------------------------

  /** The year whose ordinals contain `n`, searched upward from `y`. */
  function FindYear(n: int, y: int): (r: int)
    requires MinYear <= y <= MaxYear
    requires DaysBeforeYear(y) < n <= MaxOrdinal
    ensures y <= r <= MaxYear
    ensures DaysBeforeYear(r) < n <= DaysBeforeYear(r + 1)
    decreases MaxYear - y
  {
    if n <= DaysBeforeYear(y + 1) then y
    else
      assert y < MaxYear by { MaxOrdinalValue(); }
      FindYear(n, y + 1)
  }

  /** The month of year `y` containing day-of-year `r`, searched downward from `m`. */
  function FindMonth(y: int, r: int, m: int): (k: int)
    requires 1 <= m <= 12
    requires 1 <= r <= DaysBeforeMonth(y, m + 1)
    ensures 1 <= k <= m
    ensures DaysBeforeMonth(y, k) < r <= DaysBeforeMonth(y, k + 1)
    decreases m
  {
    if DaysBeforeMonth(y, m) < r then m
    else FindMonth(y, r, m - 1)
  }

  /** Python's `date.fromordinal`, at midnight. */
  function FromOrdinal(n: int): (dt: DateTime)
    requires 1 <= n <= MaxOrdinal
    ensures Valid(dt) && IsMidnight(dt)
    ensures Ordinal(dt) == n
  {
    var y := FindYear(n, MinYear);
    DaysBeforeYearStep(y);
    var r := n - DaysBeforeYear(y);
    var m := FindMonth(y, r, 12);
    DaysBeforeMonthStep(y, m);
    Midnight(y, m, r - DaysBeforeMonth(y, m))
  }

  lemma {:induction false} YearUnique(n: int, y: int, z: int)
    requires MinYear <= y && MinYear <= z
    requires DaysBeforeYear(y) < n <= DaysBeforeYear(y + 1)
    requires DaysBeforeYear(z) < n <= DaysBeforeYear(z + 1)
    ensures y == z
  {
    if y < z {
      DaysBeforeYearMonotone(y + 1, z);
    } else if z < y {
      DaysBeforeYearMonotone(z + 1, y);
    }
  }

  lemma DaysBeforeMonthMonotone(y: int, a: int, b: int)
    requires 1 <= a <= b <= 13
    ensures DaysBeforeMonth(y, a) <= DaysBeforeMonth(y, b)
  {
  }

  lemma MonthUnique(y: int, r: int, m: int, k: int)
    requires 1 <= m <= 12 && 1 <= k <= 12
    requires DaysBeforeMonth(y, m) < r <= DaysBeforeMonth(y, m + 1)
    requires DaysBeforeMonth(y, k) < r <= DaysBeforeMonth(y, k + 1)
    ensures m == k
  {
    if m < k {
      DaysBeforeMonthMonotone(y, m + 1, k);
    } else if k < m {
      DaysBeforeMonthMonotone(y, k + 1, m);
    }
  }

  /** Two valid dates with the same ordinal are the same date. */
  lemma OrdinalInjective(a: DateTime, b: DateTime)
    requires ValidDate(a.year, a.month, a.day) && ValidDate(b.year, b.month, b.day)
    requires Ordinal(a) == Ordinal(b)
    ensures a.year == b.year && a.month == b.month && a.day == b.day
  {
    OrdinalInYear(a);
    OrdinalInYear(b);
    YearUnique(Ordinal(a), a.year, b.year);
    var y := a.year;
    var r := Ordinal(a) - DaysBeforeYear(y);
    DaysBeforeMonthStep(y, a.month);
    DaysBeforeMonthStep(y, b.month);
    MonthUnique(y, r, a.month, b.month);
  }

  /** `fromordinal(toordinal(d)) == d`: the two conversions are inverse on valid dates. */
  lemma FromOrdinalOfOrdinal(dt: DateTime)
    requires ValidDate(dt.year, dt.month, dt.day)
    ensures FromOrdinal(Ordinal(dt)) == Midnight(dt.year, dt.month, dt.day)
  {
    OrdinalInYear(dt);
    OrdinalInjective(FromOrdinal(Ordinal(dt)), dt);
  }

  /** Ordinal order is instant order for midnight values, and a later ordinal
      always means a later instant. */
  lemma ToMicrosOrder(a: DateTime, b: DateTime)
    requires Valid(a) && Valid(b)
    requires Ordinal(a) < Ordinal(b)
    ensures ToMicros(a) < ToMicros(b)
  {
  }
}

=== FILE: leaderboard.dfy ===
/** Per-officer arrest counts kept as Python dicts (`officer_id -> count`, in
    insertion order) and the `sorted(items, key=count, reverse=True)[:n]`
    that both the period report and the ranking show. */
module Leaderboard {

  datatype Entry = Entry(officer: int, count: int)

  /** A count dict, in insertion order. */
  type Board = seq<Entry>

  /** The officers a board has a count for. */
  function Officers(b: Board): set<int> {
    if |b| == 0 then {} else {b[0].officer} + Officers(b[1..])
  }

  /** No officer appears twice, as in a dict. */
  predicate Distinct(b: Board) {
    |b| == 0 || (b[0].officer !in Officers(b[1..]) && Distinct(b[1..]))
  }

  /** `b.get(o, 0)` */
  function CountOf(b: Board, o: int): int {
    if |b| == 0 then 0
    else if b[0].officer == o then b[0].count
    else CountOf(b[1..], o)
  }

  /** The sum of all counts. */
  function Total(b: Board): int {
    if |b| == 0 then 0 else b[0].count + Total(b[1..])
  }

  predicate PositiveCounts(b: Board) {
    forall i :: 0 <= i < |b| ==> b[i].count >= 1
  }

  /** In a board without repeated officers, an entry holds its officer's count. */
  lemma {:induction false} EntryCount(b: Board, e: Entry)
    requires Distinct(b) && e in b
    ensures e.officer in Officers(b) && CountOf(b, e.officer) == e.count
  {
    if b[0] != e {
      assert e in b[1..];
      EntryCount(b[1..], e);
    }
  }

  /** An officer with a non-zero count has an entry holding that count. */
  lemma {:induction false} CountedIsListed(b: Board, o: int)
    requires CountOf(b, o) != 0
    ensures Entry(o, CountOf(b, o)) in b
  {
    if b[0].officer != o {
      CountedIsListed(b[1..], o);
      assert b == [b[0]] + b[1..];
    }
  }

  /** A board without repeated officers holds each entry at most once. */
  lemma {:induction false} DistinctOnce(b: Board, e: Entry)
    requires Distinct(b)
    ensures multiset(b)[e] <= 1
  {
    if |b| > 0 {
      assert b == [b[0]] + b[1..];
      DistinctOnce(b[1..], e);
      if b[0] == e && e in b[1..] {
        EntryCount(b[1..], e);
      }
    }
  }

  /** `b[o] = b.get(o, 0) + 1`: an officer seen for the first time goes last. */
  function Inc(b: Board, o: int): (r: Board)
    ensures CountOf(r, o) == CountOf(b, o) + 1
    ensures forall o' :: o' != o ==> CountOf(r, o') == CountOf(b, o')
    ensures Officers(r) == Officers(b) + {o}
    ensures Total(r) == Total(b) + 1
    ensures Distinct(b) ==> Distinct(r)
    ensures PositiveCounts(b) ==> PositiveCounts(r)
  {
    if |b| == 0 then [Entry(o, 1)]
    else if b[0].officer == o then
      var r := [Entry(o, b[0].count + 1)] + b[1..];
      assert r[1..] == b[1..];
      r
    else
      var rest := Inc(b[1..], o);
      var r := [b[0]] + rest;
      assert r[1..] == rest;
      r
  }

  // ---------------------------------------------------------------------
  // Sorting by count, largest first
  // ---------------------------------------------------------------------

  predicate NonIncreasing(s: Board) {
    forall i, j :: 0 <= i < j < |s| ==> s[i].count >= s[j].count
  }

  /** Put `e` in front of the first entry whose count does not exceed its own,
      so that among equal counts the earlier entry stays first. */
  function Insert(e: Entry, s: Board): (r: Board)
    requires NonIncreasing(s)
    ensures NonIncreasing(r)
    ensures multiset(r) == multiset(s) + multiset{e}
    ensures |r| == |s| + 1
    ensures r[0] == e || (|s| > 0 && r[0] == s[0])
  {
    if |s| == 0 || s[0].count <= e.count then [e] + s
    else
      var rest := Insert(e, s[1..]);
      ConsKeepsOrder(s, e, rest);
      [s[0]] + rest
  }

  /** Putting back the head in front of the insertion into the tail. */
  lemma ConsKeepsOrder(s: Board, e: Entry, rest: Board)
    requires |s| > 0 && NonIncreasing(s) && e.count < s[0].count
    requires NonIncreasing(rest) && multiset(rest) == multiset(s[1..]) + multiset{e}
    requires |rest| == |s| && (rest[0] == e || (|s| > 1 && rest[0] == s[1]))
    ensures NonIncreasing([s[0]] + rest)
    ensures multiset([s[0]] + rest) == multiset(s) + multiset{e}
  {
    var r := [s[0]] + rest;
    assert s == [s[0]] + s[1..];
    assert rest[0].count <= s[0].count;
    assert forall j :: 1 <= j < |r| ==> r[j] == rest[j - 1];
  }

  /** `sorted(b.items(), key=count, reverse=True)`, largest count first;
      `SortDescStable` shows that equal counts keep insertion order. */
  function SortDesc(s: Board): (r: Board)
    ensures NonIncreasing(r)
    ensures multiset(r) == multiset(s)
    ensures |r| == |s|
  {
    if |s| == 0 then []
    else
      assert s == [s[0]] + s[1..];
      Insert(s[0], SortDesc(s[1..]))
  }

  /** The entries of `s` with count `c`, in order. */
  function WithCount(s: Board, c: int): Board {
    if |s| == 0 then [] else (if s[0].count == c then [s[0]] else []) + WithCount(s[1..], c)
  }

  /** `Insert` puts `e` ahead of every entry with the same count. */
  lemma {:induction false} InsertStable(e: Entry, s: Board, c: int)
    requires NonIncreasing(s)
    ensures WithCount(Insert(e, s), c) == (if e.count == c then [e] else []) + WithCount(s, c)
  {
    if |s| == 0 || s[0].count <= e.count {
      assert ([e] + s)[1..] == s;
    } else {
      var rest := Insert(e, s[1..]);
      InsertStable(e, s[1..], c);
      assert ([s[0]] + rest)[1..] == rest;
    }
  }

  /** Python's sort is stable: for every count, the entries holding it come
      out in the order they went in. The cut after the first `n` entries
      therefore keeps the officers counted first among equals. */
  lemma {:induction false} SortDescStable(s: Board, c: int)
    ensures WithCount(SortDesc(s), c) == WithCount(s, c)
  {
    if |s| > 0 {
      SortDescStable(s[1..], c);
      InsertStable(s[0], SortDesc(s[1..]), c);
    }
  }

  /** Cutting a non-increasing board after `k` leaves nothing behind that
      counts more than something kept. */
  lemma CutKeepsLargest(sorted: Board, k: nat)
    requires NonIncreasing(sorted) && k <= |sorted|
    ensures forall e, x :: e in sorted[k..] && x in sorted[..k] ==> e.count <= x.count
  {
    forall e, x | e in sorted[k..] && x in sorted[..k] ensures e.count <= x.count {
      var j :| 0 <= j < |sorted[k..]| && sorted[k..][j] == e;
      var i :| 0 <= i < k && sorted[..k][i] == x;
      assert sorted[i] == x && sorted[k + j] == e;
    }
  }

  /** `sorted(...)[:n]`: the `n` largest counts, largest first; whatever is
      left out counts no more than anything shown. */
  function Top(s: Board, n: nat): (r: Board)
    ensures |r| == if n < |s| then n else |s|
    ensures NonIncreasing(r)
    ensures multiset(r) <= multiset(s)
    ensures |s| <= n ==> multiset(r) == multiset(s)
    ensures forall e, x :: e in multiset(s) - multiset(r) && x in r ==> e.count <= x.count
  {
    var sorted := SortDesc(s);
    var k := if n < |sorted| then n else |sorted|;
    PrefixOfSorted(s, sorted, k);
    sorted[..k]
  }

  /** The first `k` entries of a sorted copy of `s`. */
  lemma PrefixOfSorted(s: Board, sorted: Board, k: nat)
    requires NonIncreasing(sorted) && multiset(sorted) == multiset(s) && k <= |sorted|
    ensures NonIncreasing(sorted[..k])
    ensures multiset(sorted[..k]) <= multiset(s)
    ensures k == |sorted| ==> multiset(sorted[..k]) == multiset(s)
    ensures forall e, x :: e in multiset(s) - multiset(sorted[..k]) && x in sorted[..k] ==> e.count <= x.count
  {
    var r := sorted[..k];
    assert sorted == r + sorted[k..];
    assert multiset(sorted) == multiset(r) + multiset(sorted[k..]);
    assert multiset(s) - multiset(r) == multiset(sorted[k..]);
    CutKeepsLargest(sorted, k);
  }
}

=== FILE: ledger.dfy ===
/** The prison ledger: every arrest is one JSON message in a database channel.
    Records are written fenced as a ```json code block and read back by
    stripping the fence; scanning the channel keeps the `prisao` records and
    tags each with the id of the message that holds it. */
module Ledger {
  import opened Wrappers
  import opened Civil
  import opened PyValues
  import opened TimeUtils

  /** `json.dumps(..., ensure_ascii=False)` and `json.loads`, given from outside
      the model; `loads` answers None where Python raises. */
  datatype JsonCodec = JsonCodec(dumps: Json -> string, loads: string -> Option<Json>)

  /** What the model assumes of the codec: an object is written as `{...}`
      and read back as itself. */
  ghost predicate Lawful(c: JsonCodec) {
    forall j: Json :: j.JObj? ==> WritesObject(c.dumps(j)) && c.loads(c.dumps(j)) == Some(j)
  }

  predicate WritesObject(t: string) {
    |t| >= 2 && t[0] == '{' && t[|t| - 1] == '}'
  }

  // ---------------------------------------------------------------------
  // Fencing
  // ---------------------------------------------------------------------

  predicate StartsWith(s: string, p: string) {
    |p| <= |s| && s[..|p|] == p
  }

  predicate EndsWith(s: string, p: string) {
    |p| <= |s| && s[|s| - |p|..] == p
  }

  /** `_pack_record` */
  function PackRecord(c: JsonCodec, fs: Fields): string {
    "```json\n" + c.dumps(JObj(fs)) + "\n```"
  }

  /** `s[n:].strip()` */
  function StripFrom(s: string, n: nat): (r: string)
    requires n <= |s|
    ensures Strip(r) == r && |r| <= |s|
  {
    StripIdempotent(s[n..]);
    Strip(s[n..])
  }

  /** `s[:n].strip()` */
  function StripUntil(s: string, n: nat): (r: string)
    requires n <= |s|
    ensures Strip(r) == r && |r| <= |s|
  {
    StripIdempotent(s[..n]);
    Strip(s[..n])
  }

  /** `s[len(p):].strip() if s.startswith(p) else s` */
  function DropPrefix(s: string, p: string): (r: string)
    requires Strip(s) == s
    ensures Strip(r) == r && |r| <= |s|
  {
    if StartsWith(s, p) then StripFrom(s, |p|) else s
  }

  /** `s[:-len(p)].strip() if s.endswith(p) else s` */
  function DropSuffix(s: string, p: string): (r: string)
    requires Strip(s) == s
    ensures Strip(r) == r && |r| <= |s|
  {
    if EndsWith(s, p) then StripUntil(s, |s| - |p|) else s
  }

  /** The text `_unpack_record` hands to `json.loads`: strip, drop a leading
      ```json, then a leading ```, then a trailing ```, stripping after each. */
  function Unfence(content: string): (r: string)
    ensures Strip(r) == r
    ensures |r| <= |content|
  {
    StripIdempotent(content);
    DropSuffix(DropPrefix(DropPrefix(Strip(content), "```json"), "```"), "```")
  }

  /** `_unpack_record`: None when the text is not JSON. */
  function UnpackRecord(c: JsonCodec, content: string): Option<Json> {
    c.loads(Unfence(content))
  }

  /** Stripping "\n" + t + tail, where t starts with a non-space, keeps t + tail. */
  lemma StripLeadingNewline(t: string, tail: string)
    requires |t| > 0 && !IsSpace(t[0])
    requires |tail| > 0 && !IsSpace(tail[|tail| - 1])
    ensures Strip("\n" + t + tail) == t + tail
  {
    var s := "\n" + t + tail;
    assert s[1..] == t + tail;
    assert StripLeft(s) == StripLeft(s[1..]);
    StripNoop(t + tail);
  }

  /** The fence `_pack_record` writes around a JSON object is the fence
      `_unpack_record` removes. */
  lemma UnfencePacked(t: string)
    requires WritesObject(t)
    ensures Unfence("```json\n" + t + "\n```") == t
  {
    var s := "```json\n" + t + "\n```";
    assert s[0] == '`' && s[|s| - 1] == '`';
    StripNoop(s);
    OpeningFenceDropped(t);
    var c2 := t + "\n```";
    assert DropPrefix(c2, "```") == c2 by {
      assert !StartsWith(c2, "```") by { assert c2[0] == '{'; }
    }
    ClosingFenceDropped(t);
  }

  lemma OpeningFenceDropped(t: string)
    requires WritesObject(t)
    ensures Strip("```json\n" + t + "\n```") == "```json\n" + t + "\n```"
    ensures DropPrefix("```json\n" + t + "\n```", "```json") == t + "\n```"
  {
    var s := "```json\n" + t + "\n```";
    assert s[0] == '`' && s[|s| - 1] == '`';
    StripNoop(s);
    assert StartsWith(s, "```json") by { assert s[..7] == "```json"; }
    assert s[7..] == "\n" + t + "\n```";
    StripLeadingNewline(t, "\n```");
  }

  lemma ClosingFenceDropped(t: string)
    requires WritesObject(t)
    ensures Strip(t + "\n```") == t + "\n```"
    ensures DropSuffix(t + "\n```", "```") == t
  {
    var c2 := t + "\n```";
    assert c2[0] == t[0] && c2[|c2| - 1] == '`';
    StripNoop(c2);
    ClosingFenceFound(t);
    DropFoundSuffix(c2, "```");
    StripTrailingNewline(t);
  }

  lemma DropFoundSuffix(s: string, p: string)
    requires Strip(s) == s && EndsWith(s, p)
    ensures DropSuffix(s, p) == Strip(s[..|s| - |p|])
  {
  }

  lemma ClosingFenceFound(t: string)
    ensures EndsWith(t + "\n```", "```")
    ensures (t + "\n```")[..|t| + 1] == t + "\n"
  {
    var c2 := t + "\n```";
    assert c2[|c2| - 3..] == "```";
    assert c2[..|t| + 1] == t + "\n";
  }

  lemma StripTrailingNewline(t: string)
    requires WritesObject(t)
    ensures Strip(t + "\n") == t
  {
    var s := t + "\n";
    assert s[..|s| - 1] == t;
    assert StripRight(s) == StripRight(t);
    StripNoop(t);
  }

  /** A bare JSON object, without a fence, is read as well. */
  lemma UnfenceBare(t: string)
    requires WritesObject(t)
    ensures Unfence(t) == t
  {
    StripNoop(t);
    assert !StartsWith(t, "```json") by { assert t[0] != '`'; }
    assert !StartsWith(t, "```") by { assert t[0] != '`'; }
    assert !EndsWith(t, "```") by { assert t[|t| - 1] != '`'; }
  }

  /** `_unpack_record(_pack_record(d)) == d` */
  lemma UnpackPack(c: JsonCodec, fs: Fields)
    requires Lawful(c)
    ensures UnpackRecord(c, PackRecord(c, fs)) == Some(JObj(fs))
  {
    var t := c.dumps(JObj(fs));
    assert WritesObject(t) && c.loads(t) == Some(JObj(fs));
    UnfencePacked(t);
  }

  // ---------------------------------------------------------------------
  // Scanning the database channel
  // ---------------------------------------------------------------------

  datatype Message = Message(id: int, content: string)

  /** A message together with what `_unpack_record` made of its text. */
  datatype Decoded = Decoded(id: int, rec: Option<Json>)

  function Decode(c: JsonCodec, m: Message): Decoded {
    Decoded(m.id, UnpackRecord(c, m.content))
  }

  /** Every message of a run, decoded. */
  function DecodeAll(c: JsonCodec, msgs: seq<Message>): (r: seq<Decoded>)
    ensures |r| == |msgs|
    ensures forall i :: 0 <= i < |msgs| ==> r[i] == Decode(c, msgs[i])
  {
    if |msgs| == 0 then [] else [Decode(c, msgs[0])] + DecodeAll(c, msgs[1..])
  }

  /** A decoded record that would make `rec.get` raise: a truthy value that
      is not a dict. */
  predicate PoisonRecord(rec: Option<Json>) {
    rec.Some? && Truthy(rec.value) && !rec.value.JObj?
  }

  predicate Poisoned(c: JsonCodec, m: Message) {
    PoisonRecord(UnpackRecord(c, m.content))
  }

  /** `rec["_db_msg_id"] = msg.id` */
  function Tag(fs: Fields, id: int): (r: Fields)
    ensures Find(r, "_db_msg_id") == Some(JInt(id))
    ensures forall k :: k != "_db_msg_id" ==> Find(r, k) == Find(fs, k)
  {
    Set(fs, "_db_msg_id", JInt(id))
  }

  /** The record a decoded dict contributes: tagged when its type is `prisao`. */
  function KeepArrest(fs: Fields, id: int): (r: Option<Fields>)
    ensures r.Some? <==> Find(fs, "type") == Some(JStr("prisao"))
    ensures r.Some? ==> Find(r.value, "type") == Some(JStr("prisao"))
    ensures r.Some? ==> Find(r.value, "_db_msg_id") == Some(JInt(id))
  {
    if Find(fs, "type") == Some(JStr("prisao")) then
      var t := Tag(fs, id);
      assert Find(t, "type") == Find(fs, "type");
      Some(t)
    else None
  }

  /** One step of `fetch_all_prison_records` on a decoded message; Err is
      the AttributeError. */
  function ReadOne(d: Decoded): (r: Result<Option<Fields>, PyError>)
    ensures r.Err? <==> PoisonRecord(d.rec)
    ensures r.Ok? && r.value.Some? ==>
      && d.rec.Some? && d.rec.value.JObj?
      && Find(r.value.value, "type") == Some(JStr("prisao"))
      && Find(r.value.value, "_db_msg_id") == Some(JInt(d.id))
  {
    match d.rec
    case None => Ok(None)
    case Some(rec) =>
      if !Truthy(rec) then Ok(None)
      else if !rec.JObj? then Err(AttributeError)
      else Ok(KeepArrest(rec.fields, d.id))
  }

  /** The same step on the message itself. */
  function ReadRecord(c: JsonCodec, m: Message): (r: Result<Option<Fields>, PyError>)
    ensures r.Err? <==> Poisoned(c, m)
    ensures r.Ok? && r.value.Some? ==>
      && Find(r.value.value, "type") == Some(JStr("prisao"))
      && Find(r.value.value, "_db_msg_id") == Some(JInt(m.id))
    ensures r.Ok? ==>
              var rec := UnpackRecord(c, m.content);
              (r.value.Some? <==> rec.Some? && rec.value.JObj? && Find(rec.value.fields, "type") == Some(JStr("prisao")))
    ensures r.Ok? && r.value.Some? ==> r.value.value == Tag(UnpackRecord(c, m.content).value.fields, m.id)
  {
    ReadOne(Decode(c, m))
  }

  /** The records of a run of decoded messages, in message order. */
  function ScanDecoded(ds: seq<Decoded>): (r: Result<seq<Fields>, PyError>)
    ensures r.Ok? ==> |r.value| <= |ds|
    ensures r.Ok? ==> forall k :: 0 <= k < |r.value| ==> Find(r.value[k], "type") == Some(JStr("prisao"))
  {
    if |ds| == 0 then Ok([])
    else Prepend(ReadOne(ds[0]), ScanDecoded(ds[1..]))
  }

  /** One message's step in front of the scan of the messages after it: its
      exception ends the scan, and its record goes first. */
  function Prepend(step: Result<Option<Fields>, PyError>, rest: Result<seq<Fields>, PyError>)
    : Result<seq<Fields>, PyError>
  {
    match step
    case Err(e) => Err(e)
    case Ok(None) => rest
    case Ok(Some(fs)) => if rest.Err? then rest else Ok([fs] + rest.value)
  }

  /** The records of a run of messages, in message order. */
  function ScanAll(c: JsonCodec, msgs: seq<Message>): (r: Result<seq<Fields>, PyError>)
    ensures r.Ok? ==> |r.value| <= |msgs|
    ensures r.Ok? ==> forall k :: 0 <= k < |r.value| ==> Find(r.value[k], "type") == Some(JStr("prisao"))
  {
    ScanDecoded(DecodeAll(c, msgs))
  }

  /** The scan fails exactly when some message holds a truthy record that
      is not a dict. */
  lemma ScanFailsOnlyOnPoison(c: JsonCodec, msgs: seq<Message>)
    ensures ScanAll(c, msgs).Err? <==> exists i :: 0 <= i < |msgs| && Poisoned(c, msgs[i])
  {
    var ds := DecodeAll(c, msgs);
    if ScanAll(c, msgs).Err? {
      var i := PoisonOfFailure(ds);
      assert ds[i] == Decode(c, msgs[i]);
    }
    if exists i :: 0 <= i < |msgs| && Poisoned(c, msgs[i]) {
      var i :| 0 <= i < |msgs| && Poisoned(c, msgs[i]);
      assert ds[i] == Decode(c, msgs[i]);
      PoisonFails(ds, i);
    }
  }

  lemma {:induction false} PoisonOfFailure(ds: seq<Decoded>) returns (i: int)
    requires ScanDecoded(ds).Err?
    ensures 0 <= i < |ds| && PoisonRecord(ds[i].rec)
  {
    if PoisonRecord(ds[0].rec) {
      i := 0;
    } else {
      var j := PoisonOfFailure(ds[1..]);
      i := j + 1;
      assert ds[1..][j] == ds[i];
    }
  }

  lemma {:induction false} PoisonFails(ds: seq<Decoded>, i: int)
    requires 0 <= i < |ds| && PoisonRecord(ds[i].rec)
    ensures ScanDecoded(ds).Err?
  {
    if i > 0 {
      assert ds[1..][i - 1] == ds[i];
      PoisonFails(ds[1..], i - 1);
    }
  }

  /** What one message that does not raise adds to the scan: its dict,
      tagged with the message id, when its type is `prisao`; nothing otherwise. */
  function Kept(d: Decoded): seq<Fields> {
    if d.rec.Some? && d.rec.value.JObj? && Find(d.rec.value.fields, "type") == Some(JStr("prisao"))
    then [Tag(d.rec.value.fields, d.id)]
    else []
  }

  /** A single message raises when it is poison and otherwise adds what
      `Kept` says. */
  lemma ScanOne(d: Decoded)
    ensures ScanDecoded([d]) == if PoisonRecord(d.rec) then Err(AttributeError) else Ok(Kept(d))
  {
    assert [d][1..] == [] && [d][0] == d;
    assert ScanDecoded([]) == Ok([]);
    if d.rec.Some? && d.rec.value.JObj? && Find(d.rec.value.fields, "type") == Some(JStr("prisao")) {
      var t := Tag(d.rec.value.fields, d.id);
      assert d.rec.value.fields != [];
      assert ReadOne(d) == Ok(Some(t));
      assert ScanDecoded([d]) == Ok([t] + []);
      assert [t] + [] == [t] && [t] == Kept(d);
    }
  }

  /** The scan of a run split in two succeeds iff both halves do, and then
      gives the first half's records followed by the second's. With
      `ScanOne`, this fixes the result: the kept records, in history order. */
  lemma {:induction false} ScanAppend(a: seq<Decoded>, b: seq<Decoded>)
    ensures ScanDecoded(a + b).Ok? <==> ScanDecoded(a).Ok? && ScanDecoded(b).Ok?
    ensures ScanDecoded(a + b).Ok? ==> ScanDecoded(a + b).value == ScanDecoded(a).value + ScanDecoded(b).value
  {
    if |a| == 0 {
      assert a + b == b;
    } else {
      assert (a + b)[0] == a[0];
      assert (a + b)[1..] == a[1..] + b;
      ScanAppend(a[1..], b);
      PrependAppend(ReadOne(a[0]), ScanDecoded(a[1..]), ScanDecoded(b), ScanDecoded(a[1..] + b));
    }
  }

  /** A step put in front of a scan that splits in two splits the same way. */
  lemma PrependAppend(step: Result<Option<Fields>, PyError>, x: Result<seq<Fields>, PyError>,
                      y: Result<seq<Fields>, PyError>, xy: Result<seq<Fields>, PyError>)
    requires xy.Ok? <==> x.Ok? && y.Ok?
    requires xy.Ok? ==> xy.value == x.value + y.value
    ensures Prepend(step, xy).Ok? <==> Prepend(step, x).Ok? && y.Ok?
    ensures Prepend(step, xy).Ok? ==> Prepend(step, xy).value == Prepend(step, x).value + y.value
  {
    if step.Ok? && step.value.Some? && xy.Ok? {
      assert [step.value.value] + (x.value + y.value) == ([step.value.value] + x.value) + y.value;
    }
  }

  lemma {:induction false} DecodeAllAppend(c: JsonCodec, m1: seq<Message>, m2: seq<Message>)
    ensures DecodeAll(c, m1 + m2) == DecodeAll(c, m1) + DecodeAll(c, m2)
  {
    if |m1| == 0 {
      assert m1 + m2 == m2;
    } else {
      assert (m1 + m2)[0] == m1[0];
      assert (m1 + m2)[1..] == m1[1..] + m2;
      DecodeAllAppend(c, m1[1..], m2);
    }
  }

  /** One message, as the scan reads it from the channel. */
  lemma ScanAllOne(c: JsonCodec, m: Message)
    ensures ScanAll(c, [m]) == if Poisoned(c, m) then Err(AttributeError) else Ok(Kept(Decode(c, m)))
  {
    assert DecodeAll(c, [m]) == [Decode(c, m)];
    ScanOne(Decode(c, m));
  }

  /** Reading a history in two parts gives the records of the older part,
      then those of the newer part. */
  lemma ScanAllAppend(c: JsonCodec, m1: seq<Message>, m2: seq<Message>)
    ensures ScanAll(c, m1 + m2).Ok? <==> ScanAll(c, m1).Ok? && ScanAll(c, m2).Ok?
    ensures ScanAll(c, m1 + m2).Ok? ==> ScanAll(c, m1 + m2).value == ScanAll(c, m1).value + ScanAll(c, m2).value
  {
    DecodeAllAppend(c, m1, m2);
    ScanAppend(DecodeAll(c, m1), DecodeAll(c, m2));
  }

  /** `fetch_all_prison_records(channel, limit)`: the history is read oldest
      first, so only the `limit` oldest messages are scanned. */
  function FetchRecords(c: JsonCodec, history: seq<Message>, limit: nat): (r: Result<seq<Fields>, PyError>)
    ensures r.Ok? ==> |r.value| <= limit
  {
    ScanAll(c, if limit < |history| then history[..limit] else history)
  }

  /** The fetch reads the whole history when it is short enough; otherwise,
      when the whole history scans, the fetched records are the first ones of
      that scan. */
  lemma FetchReadsOldest(c: JsonCodec, history: seq<Message>, limit: nat)
    ensures |history| <= limit ==> FetchRecords(c, history, limit) == ScanAll(c, history)
    ensures ScanAll(c, history).Ok? ==>
              FetchRecords(c, history, limit).Ok? && FetchRecords(c, history, limit).value <= ScanAll(c, history).value
  {
    if limit < |history| {
      assert history == history[..limit] + history[limit..];
      ScanAllAppend(c, history[..limit], history[limit..]);
    }
  }

  /** Messages newer than the first `limit` never change what is fetched. */
  lemma FetchIgnoresNewer(c: JsonCodec, history: seq<Message>, newer: seq<Message>, limit: nat)
    requires limit <= |history|
    ensures FetchRecords(c, history + newer, limit) == FetchRecords(c, history, limit)
  {
    var all := history + newer;
    var read := if limit < |all| then all[..limit] else all;
    var readShort := if limit < |history| then history[..limit] else history;
    assert read == readShort by {
      if |newer| == 0 {
        assert all == history;
      } else {
        assert all[..limit] == history[..limit];
        assert limit == |history| ==> history[..limit] == history;
      }
    }
  }

  /** A `prisao` record written with `_pack_record` is found again by the scan,
      tagged with its message id. */
  lemma ScanFindsPacked(c: JsonCodec, msgs: seq<Message>, i: int, fs: Fields)
    requires Lawful(c)
    requires 0 <= i < |msgs| && msgs[i].content == PackRecord(c, fs)
    requires Find(fs, "type") == Some(JStr("prisao"))
    requires ScanAll(c, msgs).Ok?
    ensures Tag(fs, msgs[i].id) in ScanAll(c, msgs).value
  {
    var ds := DecodeAll(c, msgs);
    UnpackPack(c, fs);
    assert ds[i] == Decoded(msgs[i].id, Some(JObj(fs)));
    ScanFindsDict(ds, i, fs);
  }

  /** A decoded `prisao` dict is in the scan's result, tagged with its id. */
  lemma {:induction false} ScanFindsDict(ds: seq<Decoded>, i: int, fs: Fields)
    requires 0 <= i < |ds| && ds[i].rec == Some(JObj(fs))
    requires Find(fs, "type") == Some(JStr("prisao"))
    requires ScanDecoded(ds).Ok?
    ensures Tag(fs, ds[i].id) in ScanDecoded(ds).value
  {
    if i == 0 {
      assert Truthy(JObj(fs));
      assert ReadOne(ds[0]) == Ok(Some(Tag(fs, ds[0].id)));
    } else {
      assert ds[1..][i - 1] == ds[i];
      ScanFindsDict(ds[1..], i - 1, fs);
    }
  }

  // ---------------------------------------------------------------------
  // Registering an arrest
  // ---------------------------------------------------------------------

  /** The fields of the arrest form, as typed. */
  datatype Submission = Submission(presoId: string, presoNome: string, tempo: string, multa: string, registro: string)

  datatype SubmitOutcome =
    | TempoNotNumber
    | MultaNotNumber
    | BadChannels
    | Registered(record: Fields)

  /** The record `handle_prisao_submit` stores. */
  function ArrestRecord(data: Submission, now: DateTime, officerId: int, officerTag: string,
                        regChannelId: int, regMessageId: int): Fields
    requires Valid(now) && IsDigits(data.tempo) && IsDigits(data.multa)
  {
    [ ("type", JStr("prisao")),
      ("ts", JStr(IsoFormat(now))),
      ("officer_id", JInt(officerId)),
      ("officer_tag", JStr(officerTag)),
      ("preso_id", JStr(data.presoId)),
      ("preso_nome", JStr(data.presoNome)),
      ("tempo", JInt(DigitsValue(data.tempo))),
      ("multa", JInt(DigitsValue(data.multa))),
      ("registro", JStr(data.registro)),
      ("registro_channel_id", JInt(regChannelId)),
      ("registro_message_id", JInt(regMessageId)) ]
  }

  /** `handle_prisao_submit`: the time is checked before the fine, both before
      the channels are looked at; `channelsOk` is whether the three
      configured channels are text channels. */
  function Submit(data: Submission, now: DateTime, officerId: int, officerTag: string, channelsOk: bool,
                  regChannelId: int, regMessageId: int): (r: SubmitOutcome)
    requires Valid(now)
    ensures r.Registered? <==> IsDigits(data.tempo) && IsDigits(data.multa) && channelsOk
    ensures !IsDigits(data.tempo) ==> r == TempoNotNumber
    ensures IsDigits(data.tempo) && !IsDigits(data.multa) ==> r == MultaNotNumber
  {
    if !IsDigits(data.tempo) then TempoNotNumber
    else if !IsDigits(data.multa) then MultaNotNumber
    else if !channelsOk then BadChannels
    else Registered(ArrestRecord(data, now, officerId, officerTag, regChannelId, regMessageId))
  }

  /** The number typed in the form is the number stored: `int(tempo)` of a
      digit string, read back by `int(...)`, is the same value. */
  lemma SubmittedTempoReadsBack(data: Submission, now: DateTime, officerId: int, officerTag: string,
                                regChannelId: int, regMessageId: int)
    requires Valid(now)
    requires Submit(data, now, officerId, officerTag, true, regChannelId, regMessageId).Registered?
    ensures
      var rec := Submit(data, now, officerId, officerTag, true, regChannelId, regMessageId).record;
      PyInt(Get(rec, "tempo", JInt(0))) == ParseInt(data.tempo)
  {
    ParseIntOfDigits(data.tempo);
    var rec := ArrestRecord(data, now, officerId, officerTag, regChannelId, regMessageId);
    assert rec[6] == ("tempo", JInt(DigitsValue(data.tempo)));
    assert forall j :: 0 <= j < 6 ==> |rec[j].0| != 5;
    FindFirst(rec, 6, "tempo");
  }

  // ---------------------------------------------------------------------
  // Reading a stored record
  // ---------------------------------------------------------------------

  /** `str(x)` of a decoded value, for the values whose text `parse_iso` can
      read at all; a list or dict (whose text starts with a bracket) is None. */
  function TsText(j: Json): (r: Option<string>)
    ensures j.JStr? ==> r == Some(j.s)
    ensures r.None? <==> j.JList? || j.JObj?
  {
    match j
    case JNull => Some("None")
    case JBool(b) => Some(if b then "True" else "False")
    case JInt(i) => Some(IntToString(i))
    case JStr(s) => Some(s)
    case _ => None
  }

  /** `parse_iso(str(r.get("ts", "")))`; None is the exception. */
  function RecordTs(iso: IsoParser, fs: Fields): Option<DateTime> {
    match TsText(Get(fs, "ts", JStr("")))
    case None => None
    case Some(t) => ParseIso(iso, t)
  }

  /** `int(r.get("officer_id", 0) or 0)`; None is the exception. */
  function OfficerOf(fs: Fields): Option<int> {
    IntOrZero(Get(fs, "officer_id", JInt(0)))
  }

  /** A record without a timestamp has none: `parse_iso("")` fails. */
  lemma MissingTsIsUnreadable(iso: IsoParser, fs: Fields)
    requires IsoLawful(iso)
    requires Find(fs, "ts").None?
    ensures RecordTs(iso, fs).None?
  {
    assert ReplaceZ("") == "";
  }

  /** The stored record answers `get` with what was registered. */
  lemma ArrestRecordFields(data: Submission, now: DateTime, officerId: int, officerTag: string,
                           regChannelId: int, regMessageId: int)
    requires Valid(now) && IsDigits(data.tempo) && IsDigits(data.multa)
    ensures
      var rec := ArrestRecord(data, now, officerId, officerTag, regChannelId, regMessageId);
      && Find(rec, "type") == Some(JStr("prisao"))
      && Find(rec, "ts") == Some(JStr(IsoFormat(now)))
      && Find(rec, "officer_id") == Some(JInt(officerId))
  {
    var rec := ArrestRecord(data, now, officerId, officerTag, regChannelId, regMessageId);
    LeadingFields(rec, JStr("prisao"), JStr(IsoFormat(now)), JInt(officerId));
  }

  /** The three keys every stored record starts with. */
  lemma LeadingFields(rec: Fields, kind: Json, ts: Json, officer: Json)
    requires |rec| >= 3
    requires rec[0] == ("type", kind) && rec[1] == ("ts", ts) && rec[2] == ("officer_id", officer)
    ensures Find(rec, "type") == Some(kind)
    ensures Find(rec, "ts") == Some(ts)
    ensures Find(rec, "officer_id") == Some(officer)
  {
    FindFirst(rec, 0, "type");
    FindFirst(rec, 1, "ts");
    assert "type" != "officer_id" && "ts" != "officer_id";
    FindFirst(rec, 2, "officer_id");
  }

  /** A record whose `ts` is the `isoformat()` of a time reads back as that time. */
  lemma IsoTsReadsBack(iso: IsoParser, fs: Fields, now: DateTime)
    requires IsoLawful(iso) && Valid(now)
    requires Find(fs, "ts") == Some(JStr(IsoFormat(now)))
    ensures RecordTs(iso, fs) == Some(now)
  {
    IsoFormatHasNoZ(now);
    assert iso(IsoFormat(now)) == Some(now);
  }

  lemma TaggedReadsBack(iso: IsoParser, fs: Fields, now: DateTime, officerId: int, msgId: int)
    requires IsoLawful(iso) && Valid(now)
    requires Find(fs, "ts") == Some(JStr(IsoFormat(now)))
    requires Find(fs, "officer_id") == Some(JInt(officerId))
    ensures RecordTs(iso, Tag(fs, msgId)) == Some(now) && OfficerOf(Tag(fs, msgId)) == Some(officerId)
  {
    var rec := Tag(fs, msgId);
    assert Find(rec, "ts") == Some(JStr(IsoFormat(now)));
    assert Find(rec, "officer_id") == Some(JInt(officerId));
    IsoTsReadsBack(iso, rec, now);
  }

  /** What the scan hands on for a registered arrest reads back as the time
      and the officer it was registered with. */
  lemma ArrestReadsBack(iso: IsoParser, data: Submission, now: DateTime, officerId: int, officerTag: string,
                        regChannelId: int, regMessageId: int, msgId: int)
    requires IsoLawful(iso) && Valid(now) && IsDigits(data.tempo) && IsDigits(data.multa)
    ensures
      var rec := Tag(ArrestRecord(data, now, officerId, officerTag, regChannelId, regMessageId), msgId);
      RecordTs(iso, rec) == Some(now) && OfficerOf(rec) == Some(officerId)
  {
    var base := ArrestRecord(data, now, officerId, officerTag, regChannelId, regMessageId);
    ArrestRecordFields(data, now, officerId, officerTag, regChannelId, regMessageId);
    TaggedReadsBack(iso, base, now, officerId, msgId);
  }
}

=== FILE: perm.dfy ===
/** utils/perm.py: who counts as an administrator. */
module Perm {

  /** The parts of a guild member the check reads. */
  datatype Member = Member(isAdministrator: bool, roleIds: seq<int>)

  /** The author of an interaction: a guild member, or a plain user (a DM). */
  datatype User = GuildMember(member: Member) | PlainUser

  datatype Interaction = Interaction(inGuild: bool, user: User)

  /** `any(role.id in admin_role_ids for role in roles)` */
  function HoldsListedRole(roles: seq<int>, adminRoleIds: seq<int>): (r: bool)
    ensures r <==> exists i :: 0 <= i < |roles| && roles[i] in adminRoleIds
  {
    if |roles| == 0 then false
    else if roles[0] in adminRoleIds then true
    else
      assert forall i :: 1 <= i < |roles| ==> roles[i] == roles[1..][i - 1];
      HoldsListedRole(roles[1..], adminRoleIds)
  }

  /** `is_admin_member`: the administrator permission, or any listed role. */
  function IsAdminMember(m: Member, adminRoleIds: seq<int>): (r: bool)
    ensures m.isAdministrator ==> r
    ensures !m.isAdministrator ==>
              (r <==> exists i :: 0 <= i < |m.roleIds| && m.roleIds[i] in adminRoleIds)
  {
    m.isAdministrator || HoldsListedRole(m.roleIds, adminRoleIds)
  }

  /** With no admin roles configured only the administrator permission counts. */
  lemma NoRolesOnlyAdministrators(m: Member)
    ensures IsAdminMember(m, []) <==> m.isAdministrator
  {
  }

  /** Listing more admin roles never takes admin status away. */
  lemma AdminMonotone(m: Member, ids: seq<int>, wider: seq<int>)
    requires forall x :: x in ids ==> x in wider
    requires IsAdminMember(m, ids)
    ensures IsAdminMember(m, wider)
  {
    if !m.isAdministrator {
      var i :| 0 <= i < |m.roleIds| && m.roleIds[i] in ids;
      var role: int := m.roleIds[i];
      assert role in ids;
      assert role in wider;
    }
  }

  /** The `admin_only` check: outside a guild, or for a non-member, it fails. */
  function AdminOnly(i: Interaction, adminRoleIds: seq<int>): (r: bool)
    ensures r ==> i.inGuild && i.user.GuildMember?
    ensures i.inGuild && i.user.GuildMember? ==> (r <==> IsAdminMember(i.user.member, adminRoleIds))
  {
    match i.user
    case PlainUser => false
    case GuildMember(m) => i.inGuild && IsAdminMember(m, adminRoleIds)
  }
}

=== FILE: platform.dfy ===
/** Outcomes of chat-platform calls, given to the model as inputs. */
module Platform {

  /** The exceptions the bot tells apart: `NotFound`, `Forbidden`, and any other
      exception, known by its type name. */
  datatype PlatformError = NotFound | Forbidden | OtherError(typeName: string)

  /** `type(e).__name__` */
  function TypeName(e: PlatformError): (r: string)
    ensures e.OtherError? ==> r == e.typeName
    ensures e.NotFound? ==> r == "NotFound"
    ensures e.Forbidden? ==> r == "Forbidden"
  {
    match e
    case NotFound => "NotFound"
    case Forbidden => "Forbidden"
    case OtherError(n) => n
  }

  /** `guild.get_member(id)`, then `guild.fetch_member(id)` on a cache miss:
      the member's top-role position, or the exception the fetch raised. */
  datatype MemberLookup = Found(topRole: int) | LookupRaised(error: PlatformError)

  /** A call whose only outcome is success or an exception (`member.kick`). */
  datatype CallResult = Done | Raised(error: PlatformError)

  /** `guild.me`: whether the bot's member is cached, its guild permissions
      and the position of its top role. */
  datatype BotMember = BotMember(
    present: bool,
    manageChannels: bool,
    canKick: bool,
    isAdministrator: bool,
    topRole: int)
}

=== FILE: pyvalues.dfy ===
/** The Python values the bot's logic touches: decoded JSON (objects keep
    insertion order, as Python dicts do), truthiness, `str.strip`,
    `str.isdigit`, `int(...)` and `str(int)`. Text is restricted to ASCII:
    whitespace and digits are the ASCII ones. */
module PyValues {
  import opened Wrappers

  datatype Json =
    | JNull
    | JBool(b: bool)
    | JInt(i: int)
    | JStr(s: string)
    | JList(items: seq<Json>)
    | JObj(fields: seq<(string, Json)>)

  /** A Python exception that escapes the code being modelled. */
  datatype PyError =
    | AttributeError   // `.get` called on a value that is not a dict
    | ConversionError  // `int(x)` raised TypeError or ValueError
    | OverflowError    // date arithmetic past year 9999
    | NotIterable      // a `for` over a value that is not a list, dict or string

  /** A Python dict decoded from JSON: key/value pairs in insertion order. */
  type Fields = seq<(string, Json)>

  // ---------------------------------------------------------------------
  // Dicts
  // ---------------------------------------------------------------------

  /** `d.get(k)`: the value stored under `k`, if any. */
  function Find(fs: Fields, k: string): (r: Option<Json>)
    ensures r.Some? ==> (k, r.value) in fs
    ensures r.None? ==> forall i :: 0 <= i < |fs| ==> fs[i].0 != k
  {
    if |fs| == 0 then None
    else if fs[0].0 == k then Some(fs[0].1)
    else Find(fs[1..], k)
  }

  /** The first pair with key `k` is the one `get` finds. */
  lemma {:induction false} FindFirst(fs: Fields, i: int, k: string)
    requires 0 <= i < |fs| && fs[i].0 == k
    requires forall j :: 0 <= j < i ==> fs[j].0 != k
    ensures Find(fs, k) == Some(fs[i].1)
  {
    if i > 0 {
      assert fs[0].0 != k;
      assert fs[1..][i - 1] == fs[i];
      FindFirst(fs[1..], i - 1, k);
    }
  }

  /** `d.get(k, default)` */
  function Get(fs: Fields, k: string, default: Json): Json {
    Find(fs, k).GetOr(default)
  }

  /** `d[k] = v`: an existing key keeps its position, a new key goes last. */
  function Set(fs: Fields, k: string, v: Json): (r: Fields)
    ensures Find(r, k) == Some(v)
    ensures forall k' :: k' != k ==> Find(r, k') == Find(fs, k')
    ensures Find(fs, k).Some? ==> |r| == |fs|
    ensures Find(fs, k).None? ==> r == fs + [(k, v)]
  {
    if |fs| == 0 then [(k, v)]
    else if fs[0].0 == k then [(k, v)] + fs[1..]
    else
      var rest := Set(fs[1..], k, v);
      var r := [fs[0]] + rest;
      assert r[0] == fs[0] && r[1..] == rest;
      assert Find(fs, k).None? ==> r == fs + [(k, v)] by {
        if Find(fs, k).None? {
          assert fs == [fs[0]] + fs[1..];
        }
      }
      r
  }

  /** Python truthiness: `None`, `False`, `0`, `""`, `[]` and `{}` are false. */
  predicate Truthy(j: Json) {
    match j
    case JNull => false
    case JBool(b) => b
    case JInt(i) => i != 0
    case JStr(s) => s != ""
    case JList(xs) => xs != []
    case JObj(fs) => fs != []
  }

  // ---------------------------------------------------------------------
  // Strings
  // ---------------------------------------------------------------------

  /** ASCII characters for which Python's `str.isspace()` holds. */
  predicate IsSpace(c: char) {
    c == ' ' || c == '\t' || c == '\n' || c == '\r' || c == '\U{B}' || c == '\U{C}'
    || c == '\U{1C}' || c == '\U{1D}' || c == '\U{1E}' || c == '\U{1F}'
  }

  function StripLeft(s: string): (r: string)
    ensures |r| <= |s| && r == s[|s| - |r|..]
    ensures |r| > 0 ==> !IsSpace(r[0])
    ensures forall i :: 0 <= i < |s| - |r| ==> IsSpace(s[i])
  {
    if |s| > 0 && IsSpace(s[0]) then StripLeft(s[1..]) else s
  }

  function StripRight(s: string): (r: string)
    ensures |r| <= |s| && r == s[..|r|]
    ensures |r| > 0 ==> !IsSpace(r[|r| - 1])
    ensures forall i :: |r| <= i < |s| ==> IsSpace(s[i])
  {
    if |s| > 0 && IsSpace(s[|s| - 1]) then StripRight(s[..|s| - 1]) else s
  }

  /** Python's `str.strip()`: drop leading and trailing whitespace. */
  function Strip(s: string): (r: string)
    ensures |r| <= |StripLeft(s)| <= |s|
    ensures |r| > 0 ==> !IsSpace(r[0]) && !IsSpace(r[|r| - 1])
  {
    StripRight(StripLeft(s))
  }

  /** A string whose ends are not whitespace is its own strip. */
  lemma StripNoop(s: string)
    requires |s| > 0 ==> !IsSpace(s[0]) && !IsSpace(s[|s| - 1])
    ensures Strip(s) == s
  {
  }

  lemma StripIdempotent(s: string)
    ensures Strip(Strip(s)) == Strip(s)
  {
    StripNoop(Strip(s));
  }

  predicate IsDigit(c: char) {
    '0' <= c <= '9'
  }

  /** Python's `str.isdigit()`: non-empty and digits only. */
  predicate IsDigits(s: string) {
    |s| > 0 && forall i :: 0 <= i < |s| ==> IsDigit(s[i])
  }

  function DigitValue(c: char): int
    requires IsDigit(c)
  {
    c as int - '0' as int
  }

  function DigitChar(d: int): (c: char)
    requires 0 <= d < 10
    ensures IsDigit(c) && DigitValue(c) == d
  {
    ('0' as int + d) as char
  }

  /** The decimal value of a digit string, most significant digit first. */
  function DigitsValue(s: string): (n: int)
    requires forall i :: 0 <= i < |s| ==> IsDigit(s[i])
    ensures n >= 0
  {
    if |s| == 0 then 0 else DigitsValue(s[..|s| - 1]) * 10 + DigitValue(s[|s| - 1])
  }

  /** `str(n)` for a natural number. */
  function NatToString(n: nat): (s: string)
    ensures IsDigits(s)
    ensures |s| > 1 ==> s[0] != '0'
  {
    if n < 10 then [DigitChar(n)] else NatToString(n / 10) + [DigitChar(n % 10)]
  }

  /** `str(n)` for any integer. */
  function IntToString(n: int): string {
    if n < 0 then "-" + NatToString(-n) else NatToString(n)
  }

  lemma {:induction false} DigitsValueOfNatToString(n: nat)
    ensures DigitsValue(NatToString(n)) == n
  {
    if n >= 10 {
      DigitsValueOfNatToString(n / 10);
      var s := NatToString(n);
      assert s[..|s| - 1] == NatToString(n / 10);
    }
  }

  /** The body of a Python integer literal: digits, single underscores between them. */
  predicate IsIntBody(s: string) {
    && |s| > 0
    && IsDigit(s[0]) && IsDigit(s[|s| - 1])
    && (forall i :: 0 <= i < |s| ==> IsDigit(s[i]) || s[i] == '_')
    && (forall i :: 0 <= i < |s| - 1 ==> s[i] == '_' ==> s[i + 1] != '_')
  }

  function DropUnderscores(s: string): (r: string)
    requires forall i :: 0 <= i < |s| ==> IsDigit(s[i]) || s[i] == '_'
    ensures forall i :: 0 <= i < |r| ==> IsDigit(r[i])
    ensures (forall i :: 0 <= i < |s| ==> IsDigit(s[i])) ==> r == s
  {
    if |s| == 0 then ""
    else if s[0] == '_' then DropUnderscores(s[1..])
    else [s[0]] + DropUnderscores(s[1..])
  }

  /** A literal body without its sign; None when it is not one. */
  function ParseBody(body: string): (r: Option<int>)
    ensures r.Some? ==> |body| > 0 && IsDigit(body[0]) && r.value >= 0
  {
    if !IsIntBody(body) then None
    else Some(DigitsValue(DropUnderscores(body)))
  }

  /** A stripped integer literal: an optional sign, then a literal body. */
  function ParseSigned(t: string): (r: Option<int>)
    ensures r.Some? ==> |t| > 0
  {
    if |t| > 0 && t[0] == '-' then
      match ParseBody(t[1..])
      case Some(v) => Some(-v)
      case None => None
    else if |t| > 0 && t[0] == '+' then
      match ParseBody(t[1..])
      case Some(v) => Some(v)
      case None => None
    else
      match ParseBody(t)
      case Some(v) => Some(v)
      case None => None
  }

  /** Python's `int(s)` for a string: surrounding whitespace, an optional sign,
      decimal digits with optional single underscores; None is a ValueError. */
  function ParseInt(s: string): (r: Option<int>)
    ensures r.Some? ==> |Strip(s)| > 0
  {
    ParseSigned(Strip(s))
  }

  /** A digit string is read as its decimal value. */
  lemma ParseIntOfDigits(s: string)
    requires IsDigits(s)
    ensures ParseInt(s) == Some(DigitsValue(s))
  {
    StripNoop(s);
    ParseSignedOfDigits(s);
  }

  /** A digit string is a literal body that reads as its decimal value. */
  lemma ParseBodyOfDigits(s: string)
    requires IsDigits(s)
    ensures ParseBody(s) == Some(DigitsValue(s))
  {
    assert IsIntBody(s);
    assert DropUnderscores(s) == s;
  }

  lemma ParseSignedOfDigits(d: string)
    requires IsDigits(d)
    ensures ParseSigned(d) == Some(DigitsValue(d))
  {
    ParseBodyOfDigits(d);
    assert IsDigit(d[0]);
  }

  lemma ParseSignedOfNegated(d: string)
    requires IsDigits(d)
    ensures ParseSigned("-" + d) == Some(-DigitsValue(d))
  {
    ParseBodyOfDigits(d);
    var s := "-" + d;
    assert s[0] == '-';
    assert s[1..] == d;
  }

  /** `int(str(n)) == n` */
  lemma ParseIntOfIntToString(n: int)
    ensures ParseInt(IntToString(n)) == Some(n)
  {
    var m: nat := if n < 0 then -n else n;
    var d := NatToString(m);
    var s := IntToString(n);
    DigitsValueOfNatToString(m);
    assert s[|s| - 1] == d[|d| - 1];
    StripNoop(s);
    if n < 0 {
      ParseSignedOfNegated(d);
    } else {
      ParseSignedOfDigits(d);
    }
  }

  /** Python's `int(x)` applied to a decoded JSON value; None is a
      TypeError or ValueError. */
  function PyInt(j: Json): (r: Option<int>)
    ensures j.JInt? ==> r == Some(j.i)
    ensures j.JNull? || j.JList? || j.JObj? ==> r.None?
  {
    match j
    case JInt(i) => Some(i)
    case JBool(b) => Some(if b then 1 else 0)
    case JStr(s) => ParseInt(s)
    case _ => None
  }

  /** `int(x or 0)`: a falsy value reads as 0. */
  function IntOrZero(j: Json): (r: Option<int>)
    ensures !Truthy(j) ==> r == Some(0)
    ensures Truthy(j) ==> r == PyInt(j)
  {
    if Truthy(j) then PyInt(j) else Some(0)
  }
}

=== FILE: ranking.dfy ===
/** The live ranking: arrests per officer since the start of today, this
    week, this month and this year, each shown as its ten leaders. */
module Ranking {
  import opened Wrappers
  import opened Civil
  import opened PyValues
  import opened TimeUtils
  import opened Leaderboard
  import opened Ledger

  /** `_calc_buckets`' timestamp: a record whose `ts` cannot be read counts
      as registered now. */
  function RecordTime(iso: IsoParser, now: DateTime, fs: Fields): (r: DateTime)
    requires IsoLawful(iso) && Valid(now)
    ensures Valid(r)
    ensures RecordTs(iso, fs).None? ==> r == now
  {
    match RecordTs(iso, fs)
    case Some(ts) => ts
    case None => now
  }

  /** `ts >= start` */
  predicate Since(iso: IsoParser, now: DateTime, fs: Fields, start: DateTime)
    requires IsoLawful(iso) && Valid(now) && Valid(start)
  {
    ToMicros(RecordTime(iso, now, fs)) >= ToMicros(start)
  }

  /** How many records name officer `o` and fall at or after `start`. */
  function CountSince(iso: IsoParser, now: DateTime, rs: seq<Fields>, start: DateTime, o: int): nat
    requires IsoLawful(iso) && Valid(now) && Valid(start)
  {
    if |rs| == 0 then 0
    else
      var last := rs[|rs| - 1];
      CountSince(iso, now, rs[..|rs| - 1], start, o)
      + (if OfficerOf(last) == Some(o) && Since(iso, now, last, start) then 1 else 0)
  }

  /** One bucket of `_calc_buckets` on its own: arrests per non-zero officer
      at or after `start`, in order of first appearance; Err is a non-numeric
      officer id, which nothing catches. */
  function Bucket(iso: IsoParser, now: DateTime, rs: seq<Fields>, start: DateTime): (r: Result<Board, PyError>)
    requires IsoLawful(iso) && Valid(now) && Valid(start)
    ensures r.Ok? ==> Distinct(r.value) && PositiveCounts(r.value) && 0 !in Officers(r.value)
    ensures r.Ok? ==> forall o :: CountOf(r.value, o) == if o == 0 then 0 else CountSince(iso, now, rs, start, o)
  {
    if |rs| == 0 then Ok([])
    else
      match Bucket(iso, now, rs[..|rs| - 1], start)
      case Err(e) => Err(e)
      case Ok(b) =>
        var last := rs[|rs| - 1];
        match OfficerOf(last)
        case None => Err(ConversionError)
        case Some(oid) => Ok(Step(b, oid, RecordTime(iso, now, last), start))
  }

  datatype Buckets = Buckets(day: Board, week: Board, month: Board, year: Board)

  /** One record's contribution to a single bucket, as `_calc_buckets`
      applies it: a non-zero officer whose time is at or after `start`. */
  function Step(b: Board, oid: int, ts: DateTime, start: DateTime): Board
    requires Valid(ts) && Valid(start)
  {
    if oid != 0 && ToMicros(ts) >= ToMicros(start) then Inc(b, oid) else b
  }

  /** Adding the last record to a bucket computed without it. */
  lemma BucketSnoc(iso: IsoParser, now: DateTime, rs: seq<Fields>, start: DateTime, prev: Board, oid: int)
    requires IsoLawful(iso) && Valid(now) && Valid(start) && |rs| > 0
    requires Bucket(iso, now, rs[..|rs| - 1], start) == Ok(prev)
    requires OfficerOf(rs[|rs| - 1]) == Some(oid)
    ensures Bucket(iso, now, rs, start) == Ok(Step(prev, oid, RecordTime(iso, now, rs[|rs| - 1]), start))
  {
  }

  /** `_calc_buckets`: one pass over the records, adding each arrest to every
      period it falls in. */
  function CalcBuckets(iso: IsoParser, now: DateTime, rs: seq<Fields>): (r: Result<Buckets, PyError>)
    requires IsoLawful(iso) && Valid(now)
    ensures r.Ok? <==> Bucket(iso, now, rs, StartOfDay(now)).Ok?
    ensures r.Ok? ==>
      && Ok(r.value.day) == Bucket(iso, now, rs, StartOfDay(now))
      && Ok(r.value.week) == Bucket(iso, now, rs, StartOfWeek(now))
      && Ok(r.value.month) == Bucket(iso, now, rs, StartOfMonth(now))
      && Ok(r.value.year) == Bucket(iso, now, rs, StartOfYear(now))
  {
    if |rs| == 0 then Ok(Buckets([], [], [], []))
    else
      match CalcBuckets(iso, now, rs[..|rs| - 1])
      case Err(e) => Err(e)
      case Ok(b) =>
        var last := rs[|rs| - 1];
        match OfficerOf(last)
        case None => Err(ConversionError)
        case Some(oid) =>
          var ts := RecordTime(iso, now, last);
          BucketSnoc(iso, now, rs, StartOfDay(now), b.day, oid);
          BucketSnoc(iso, now, rs, StartOfWeek(now), b.week, oid);
          BucketSnoc(iso, now, rs, StartOfMonth(now), b.month, oid);
          BucketSnoc(iso, now, rs, StartOfYear(now), b.year, oid);
          Ok(Buckets(
            Step(b.day, oid, ts, StartOfDay(now)),
            Step(b.week, oid, ts, StartOfWeek(now)),
            Step(b.month, oid, ts, StartOfMonth(now)),
            Step(b.year, oid, ts, StartOfYear(now))))
  }

  /** An earlier start never counts fewer arrests. */
  lemma {:induction false} CountSinceMonotone(iso: IsoParser, now: DateTime, rs: seq<Fields>,
                                              early: DateTime, late: DateTime, o: int)
    requires IsoLawful(iso) && Valid(now) && Valid(early) && Valid(late)
    requires ToMicros(early) <= ToMicros(late)
    ensures CountSince(iso, now, rs, late, o) <= CountSince(iso, now, rs, early, o)
  {
    if |rs| > 0 {
      CountSinceMonotone(iso, now, rs[..|rs| - 1], early, late, o);
    }
  }

  /** Today's count never exceeds this week's or this month's, and this
      month's never exceeds this year's. */
  lemma BucketsNested(iso: IsoParser, now: DateTime, rs: seq<Fields>, o: int)
    requires IsoLawful(iso) && Valid(now)
    requires CalcBuckets(iso, now, rs).Ok?
    ensures
      var b := CalcBuckets(iso, now, rs).value;
      && CountOf(b.day, o) <= CountOf(b.week, o)
      && CountOf(b.day, o) <= CountOf(b.month, o) <= CountOf(b.year, o)
  {
    var b := CalcBuckets(iso, now, rs).value;
    assert CountOf(b.day, o) == if o == 0 then 0 else CountSince(iso, now, rs, StartOfDay(now), o);
    assert CountOf(b.week, o) == if o == 0 then 0 else CountSince(iso, now, rs, StartOfWeek(now), o);
    assert CountOf(b.month, o) == if o == 0 then 0 else CountSince(iso, now, rs, StartOfMonth(now), o);
    assert CountOf(b.year, o) == if o == 0 then 0 else CountSince(iso, now, rs, StartOfYear(now), o);
    TruncationsOrdered(now);
    if o != 0 {
      CountSinceMonotone(iso, now, rs, StartOfWeek(now), StartOfDay(now), o);
      CountSinceMonotone(iso, now, rs, StartOfMonth(now), StartOfDay(now), o);
      CountSinceMonotone(iso, now, rs, StartOfYear(now), StartOfMonth(now), o);
    }
  }

  /** A record whose time cannot be read is counted in every period. */
  lemma UnreadableCountsEverywhere(iso: IsoParser, now: DateTime, rs: seq<Fields>, fs: Fields, o: int)
    requires IsoLawful(iso) && Valid(now)
    requires RecordTs(iso, fs).None? && OfficerOf(fs) == Some(o)
    ensures CountSince(iso, now, rs + [fs], StartOfDay(now), o) == CountSince(iso, now, rs, StartOfDay(now), o) + 1
    ensures CountSince(iso, now, rs + [fs], StartOfWeek(now), o) == CountSince(iso, now, rs, StartOfWeek(now), o) + 1
    ensures CountSince(iso, now, rs + [fs], StartOfMonth(now), o) == CountSince(iso, now, rs, StartOfMonth(now), o) + 1
    ensures CountSince(iso, now, rs + [fs], StartOfYear(now), o) == CountSince(iso, now, rs, StartOfYear(now), o) + 1
  {
    TruncationsOrdered(now);
    assert (rs + [fs])[..|rs + [fs]| - 1] == rs;
  }

  // ---------------------------------------------------------------------
  // The embed
  // ---------------------------------------------------------------------

  datatype Section = NoRecords | Ranked(entries: Board)

  /** How many officers each period of the ranking lists. */
  const RankTopSize := 10

  /** One field of `_build_rank_embed`: "no records" for an empty bucket,
      otherwise its ten largest counts, largest first. */
  function RankSection(b: Board): (r: Section)
    ensures r.NoRecords? <==> |b| == 0
    ensures r.Ranked? ==> 1 <= |r.entries| <= RankTopSize && NonIncreasing(r.entries)
    ensures r.Ranked? ==> |r.entries| == if |b| < RankTopSize then |b| else RankTopSize
    ensures r.Ranked? ==> multiset(r.entries) <= multiset(b)
    ensures r.Ranked? ==>
      forall e, x :: e in multiset(b) - multiset(r.entries) && x in r.entries ==> e.count <= x.count
  {
    if |b| == 0 then NoRecords else Ranked(Top(b, RankTopSize))
  }
}

=== FILE: report.dfy ===
/** `/relatorio_periodo`: the arrests registered in a period, their total
    time and fines, and the officers with most arrests. */
module Report {
  import opened Wrappers
  import opened Civil
  import opened PyValues
  import opened TimeUtils
  import opened Leaderboard
  import opened Ledger
  import Perm

  // ---------------------------------------------------------------------
  // Reading the dates typed by the user
  // ---------------------------------------------------------------------

  /** `_parse_user_datetime`: ISO first (with or without `Z`), then
      `YYYY-MM-DD`, then `DD/MM/YYYY`; None is the ValueError. */
  function ParseUserDateTime(iso: IsoParser, s: string): (r: Option<DateTime>)
    ensures r.Some? ==> Strip(s) != ""
    ensures IsoLawful(iso) && r.Some? ==> Valid(r.value)
  {
    var t := Strip(s);
    if t == "" then None
    else
      match ParseIso(iso, t)
      case Some(dt) => Some(dt)
      case None => PatternDate(t)
  }

  /** The two regular expressions tried after ISO: `^(\d{4})-(\d{2})-(\d{2})$`
      and then `^(\d{2})/(\d{2})/(\d{4})$`. */
  function PatternDate(t: string): (r: Option<DateTime>)
    ensures r.Some? ==> Valid(r.value) && IsMidnight(r.value)
    ensures !IsYmdShape(t) && !IsDmyShape(t) ==> r.None?
  {
    if IsYmdShape(t) then YmdDate(t)
    else if IsDmyShape(t) then DmyDate(t)
    else None
  }

  function YmdText(y: nat, m: nat, d: nat): string {
    Pad(y, 4) + "-" + Pad(m, 2) + "-" + Pad(d, 2)
  }

  function DmyText(y: nat, m: nat, d: nat): string {
    Pad(d, 2) + "/" + Pad(m, 2) + "/" + Pad(y, 4)
  }

  /** Three fields joined by a separator, and where each one lies. */
  lemma Joined(a: string, sep: char, b: string, c: string)
    requires |a| > 0 && |c| > 0
    ensures var t := a + [sep] + b + [sep] + c;
      && |t| == |a| + |b| + |c| + 2
      && t[..|a|] == a && t[|a|] == sep
      && t[|a| + 1..|a| + 1 + |b|] == b && t[|a| + 1 + |b|] == sep
      && t[|a| + 2 + |b|..] == c
      && t[0] == a[0] && t[|t| - 1] == c[|c| - 1]
  {
    var t := a + [sep] + b + [sep] + c;
    assert t[..|a|] == a;
    assert t[|a| + 1..|a| + 1 + |b|] == b;
    assert t[|a| + 2 + |b|..] == c;
  }

  lemma YmdTextShape(y: nat, m: nat, d: nat)
    requires y < 10000 && m < 100 && d < 100
    ensures IsYmdShape(YmdText(y, m, d))
    ensures YmdDate(YmdText(y, m, d)) == DateOf(y, m, d)
    ensures Strip(YmdText(y, m, d)) == YmdText(y, m, d)
    ensures 'Z' !in YmdText(y, m, d)
  {
    YmdTextIsShaped(y, m, d);
    YmdTextHasNoZ(y, m, d);
  }

  lemma YmdTextIsShaped(y: nat, m: nat, d: nat)
    requires y < 10000 && m < 100 && d < 100
    ensures IsYmdShape(YmdText(y, m, d))
    ensures YmdDate(YmdText(y, m, d)) == DateOf(y, m, d)
    ensures Strip(YmdText(y, m, d)) == YmdText(y, m, d)
  {
    var t := YmdText(y, m, d);
    var a, b, c := Pad(y, 4), Pad(m, 2), Pad(d, 2);
    assert t == a + ['-'] + b + ['-'] + c;
    Joined(a, '-', b, c);
    PadValue(y, 4);
    PadValue(m, 2);
    PadValue(d, 2);
    StripNoop(t);
  }

  lemma YmdTextHasNoZ(y: nat, m: nat, d: nat)
    ensures 'Z' !in YmdText(y, m, d)
  {
    PadHasNoZ(y, 4);
    PadHasNoZ(m, 2);
    PadHasNoZ(d, 2);
    NoZCat(Pad(y, 4), "-");
    NoZCat(Pad(y, 4) + "-", Pad(m, 2));
    NoZCat(Pad(y, 4) + "-" + Pad(m, 2), "-");
    NoZCat(Pad(y, 4) + "-" + Pad(m, 2) + "-", Pad(d, 2));
  }

  lemma DmyTextShape(y: nat, m: nat, d: nat)
    requires y < 10000 && m < 100 && d < 100
    ensures IsDmyShape(DmyText(y, m, d)) && !IsYmdShape(DmyText(y, m, d))
    ensures DmyDate(DmyText(y, m, d)) == DateOf(y, m, d)
    ensures Strip(DmyText(y, m, d)) == DmyText(y, m, d)
    ensures HasSlash(DmyText(y, m, d)) && HasSlash(ReplaceZ(DmyText(y, m, d)))
  {
    DmyTextIsShaped(y, m, d);
    DmyTextHasNoZ(y, m, d);
  }

  lemma DmyTextIsShaped(y: nat, m: nat, d: nat)
    requires y < 10000 && m < 100 && d < 100
    ensures IsDmyShape(DmyText(y, m, d)) && !IsYmdShape(DmyText(y, m, d))
    ensures DmyDate(DmyText(y, m, d)) == DateOf(y, m, d)
    ensures Strip(DmyText(y, m, d)) == DmyText(y, m, d)
    ensures HasSlash(DmyText(y, m, d))
  {
    var t := DmyText(y, m, d);
    var a, b, c := Pad(d, 2), Pad(m, 2), Pad(y, 4);
    assert t == a + ['/'] + b + ['/'] + c;
    Joined(a, '/', b, c);
    assert t[4] == b[1];
    PadValue(y, 4);
    PadValue(m, 2);
    PadValue(d, 2);
    StripNoop(t);
  }

  lemma DmyTextHasNoZ(y: nat, m: nat, d: nat)
    ensures 'Z' !in DmyText(y, m, d)
  {
    PadHasNoZ(y, 4);
    PadHasNoZ(m, 2);
    PadHasNoZ(d, 2);
    NoZCat(Pad(d, 2), "/");
    NoZCat(Pad(d, 2) + "/", Pad(m, 2));
    NoZCat(Pad(d, 2) + "/" + Pad(m, 2), "/");
    NoZCat(Pad(d, 2) + "/" + Pad(m, 2) + "/", Pad(y, 4));
  }

  /** `2026-01-19` is read as midnight of that day, and an impossible date
      is refused. */
  lemma ParseYmdText(iso: IsoParser, y: nat, m: nat, d: nat)
    requires IsoLawful(iso)
    requires y < 10000 && m < 100 && d < 100
    ensures ParseUserDateTime(iso, YmdText(y, m, d)) == DateOf(y, m, d)
  {
    YmdTextShape(y, m, d);
    ParseYmdShaped(iso, YmdText(y, m, d));
    IsoReadsYmd(iso, YmdText(y, m, d));
  }

  /** Text in the `YYYY-MM-DD` shape is read as that date, whichever branch
      reads it. */
  lemma ParseYmdShaped(iso: IsoParser, t: string)
    requires IsoLawful(iso)
    requires IsYmdShape(t) && Strip(t) == t && 'Z' !in t
    ensures ParseUserDateTime(iso, t) == ParseIso(iso, t)
  {
    IsoReadsYmd(iso, t);
    if ParseIso(iso, t).Some? {
      ParsedAsIso(iso, t);
    } else {
      ParsedByPattern(iso, t);
    }
  }

  lemma IsoReadsYmd(iso: IsoParser, t: string)
    requires IsoLawful(iso)
    requires IsYmdShape(t) && 'Z' !in t
    ensures ParseIso(iso, t) == YmdDate(t)
  {
  }

  lemma ParsedAsIso(iso: IsoParser, t: string)
    requires ParseIso(iso, t).Some?
    requires Strip(t) == t && t != ""
    ensures ParseUserDateTime(iso, t) == ParseIso(iso, t)
  {
  }

  lemma ParsedByPattern(iso: IsoParser, t: string)
    requires ParseIso(iso, t).None? && IsYmdShape(t)
    requires Strip(t) == t
    ensures ParseUserDateTime(iso, t) == YmdDate(t)
  {
    assert PatternDate(t) == YmdDate(t);
  }

  /** `19/01/2026` is read as midnight of that day, and an impossible date
      is refused. */
  lemma ParseDmyText(iso: IsoParser, y: nat, m: nat, d: nat)
    requires IsoLawful(iso)
    requires y < 10000 && m < 100 && d < 100
    ensures ParseUserDateTime(iso, DmyText(y, m, d)) == DateOf(y, m, d)
  {
    DmyTextShape(y, m, d);
    ParseDmyShaped(iso, DmyText(y, m, d));
  }

  /** Text in the `DD/MM/YYYY` shape is refused by the ISO parser, with or
      without its `Z`s replaced, and read by the second pattern. */
  lemma ParseDmyShaped(iso: IsoParser, t: string)
    requires IsoLawful(iso)
    requires IsDmyShape(t) && !IsYmdShape(t) && Strip(t) == t
    requires HasSlash(t) && HasSlash(ReplaceZ(t))
    ensures ParseUserDateTime(iso, t) == DmyDate(t)
  {
    assert PatternDate(t) == DmyDate(t);
  }

  /** The two date-only formats name the same day. */
  lemma DateFormatsAgree(iso: IsoParser, y: nat, m: nat, d: nat)
    requires IsoLawful(iso)
    requires y < 10000 && m < 100 && d < 100
    ensures ParseUserDateTime(iso, YmdText(y, m, d)) == ParseUserDateTime(iso, DmyText(y, m, d))
    ensures ParseUserDateTime(iso, DmyText(y, m, d)).Some? <==> ValidDate(y, m, d)
  {
    ParseYmdText(iso, y, m, d);
    ParseDmyText(iso, y, m, d);
  }

  // ---------------------------------------------------------------------
  // The period
  // ---------------------------------------------------------------------

  /** The half-open interval `[start, stop)` of instants, in microseconds. */
  datatype Window = Window(start: int, stop: int)

  predicate InWindow(w: Window, t: int) {
    w.start <= t < w.stop
  }

  /** Text that names a time of day as well as a date. */
  predicate HasTime(raw: string) {
    'T' in raw || ':' in raw
  }

  datatype PeriodOutcome = Period(w: Window) | BadDate | EndBeforeStart | Overflow

  /** One microsecond past the last instant a Python datetime can hold
      (the end of 9999-12-31). */
  const InstantLimit: int := (MaxOrdinal + 1) * MicrosPerDay

  /** The exclusive end of the period: the next midnight after a date, one
      microsecond after a time; None is the OverflowError of stepping past
      9999-12-31. */
  function PeriodStop(end: DateTime, timed: bool): (r: Option<int>)
    requires Valid(end)
    ensures r.Some? ==> ToMicros(end) < r.value < InstantLimit
    ensures r.Some? ==> r.value == if timed then ToMicros(end) + 1 else (Ordinal(end) + 1) * MicrosPerDay
    ensures !timed ==> (r.None? <==> Ordinal(end) == MaxOrdinal)
    ensures timed ==> (r.None? <==> ToMicros(end) == InstantLimit - 1)
  {
    OrdinalInYear(end);
    var sod := StartOfDay(end);
    assert Ordinal(sod) == Ordinal(end);
    var stop := if timed then ToMicros(end) + 1 else ToMicros(sod) + MicrosPerDay;
    if stop >= InstantLimit then None else Some(stop)
  }

  /** The period of `relatorio_periodo`: a date-only start begins at its
      midnight, a date-only end covers its whole day. */
  function ReportPeriod(iso: IsoParser, inicio: string, fim: string): (r: PeriodOutcome)
    requires IsoLawful(iso)
    ensures r.Period? ==> r.w.start <= r.w.stop
    ensures r == BadDate <==>
      ParseUserDateTime(iso, inicio).None? || ParseUserDateTime(iso, fim).None?
    ensures r == Overflow <==>
      && ParseUserDateTime(iso, inicio).Some? && ParseUserDateTime(iso, fim).Some?
      && PeriodStop(ParseUserDateTime(iso, fim).value, HasTime(fim)).None?
    ensures ParseUserDateTime(iso, inicio).Some? && ParseUserDateTime(iso, fim).Some?
            && PeriodStop(ParseUserDateTime(iso, fim).value, HasTime(fim)).Some? ==>
      var ini := ParseUserDateTime(iso, inicio).value;
      var start := if HasTime(inicio) then ToMicros(ini) else Ordinal(ini) * MicrosPerDay;
      var stop := PeriodStop(ParseUserDateTime(iso, fim).value, HasTime(fim)).value;
      && (r == EndBeforeStart <==> stop < start)
      && (r.Period? ==> r.w == Window(start, stop))
  {
    var ini := ParseUserDateTime(iso, inicio);
    var end := ParseUserDateTime(iso, fim);
    if ini.None? || end.None? then BadDate
    else
      var start := if HasTime(inicio) then ToMicros(ini.value) else ToMicros(StartOfDay(ini.value));
      var stop := PeriodStop(end.value, HasTime(fim));
      if stop.None? then Overflow
      else if stop.value < start then EndBeforeStart
      else Period(Window(start, stop.value))
  }

  /** Two dates without a time cover the days from the first to the last,
      both included; the end may even be the day before the start, which
      gives an empty period rather than an error. */
  lemma DateRangePeriod(iso: IsoParser, inicio: string, fim: string, dt: DateTime)
    requires IsoLawful(iso) && Valid(dt)
    requires ParseUserDateTime(iso, inicio).Some? && ParseUserDateTime(iso, fim).Some?
    requires !HasTime(inicio) && !HasTime(fim)
    requires Ordinal(ParseUserDateTime(iso, fim).value) < MaxOrdinal
    ensures var first := Ordinal(ParseUserDateTime(iso, inicio).value);
            var last := Ordinal(ParseUserDateTime(iso, fim).value);
            var r := ReportPeriod(iso, inicio, fim);
            && (r == EndBeforeStart <==> last + 1 < first)
            && (r.Period? ==> (InWindow(r.w, ToMicros(dt)) <==> first <= Ordinal(dt) <= last))
  {
    var first := Ordinal(ParseUserDateTime(iso, inicio).value);
    var last := Ordinal(ParseUserDateTime(iso, fim).value);
    var r := ReportPeriod(iso, inicio, fim);
    assert PeriodStop(ParseUserDateTime(iso, fim).value, false).Some?;
    if r.Period? {
      DayOfInstant(first, last, dt);
    }
  }

  /** An instant lies in the days `first..last` exactly when its day does. */
  lemma DayOfInstant(first: int, last: int, dt: DateTime)
    requires Valid(dt)
    ensures first * MicrosPerDay <= ToMicros(dt) < (last + 1) * MicrosPerDay <==> first <= Ordinal(dt) <= last
  {
    var t := ToMicros(dt);
    var o := Ordinal(dt);
    assert o * MicrosPerDay <= t < o * MicrosPerDay + MicrosPerDay;
    if first <= o {
      assert first * MicrosPerDay <= o * MicrosPerDay;
    } else {
      assert (first - 1) * MicrosPerDay >= o * MicrosPerDay;
    }
    if o <= last {
      assert o * MicrosPerDay + MicrosPerDay <= (last + 1) * MicrosPerDay;
    } else {
      assert (last + 1) * MicrosPerDay <= o * MicrosPerDay;
    }
  }

  /** Two texts with times cover the instants from the first to the second,
      both included; an end one microsecond before the start gives an empty
      period rather than an error. */
  lemma TimedPeriod(iso: IsoParser, inicio: string, fim: string, dt: DateTime)
    requires IsoLawful(iso) && Valid(dt)
    requires ParseUserDateTime(iso, inicio).Some? && ParseUserDateTime(iso, fim).Some?
    requires HasTime(inicio) && HasTime(fim)
    ensures var a := ToMicros(ParseUserDateTime(iso, inicio).value);
            var b := ToMicros(ParseUserDateTime(iso, fim).value);
            var r := ReportPeriod(iso, inicio, fim);
            && (r == Overflow <==> b == InstantLimit - 1)
            && (r == EndBeforeStart <==> b + 1 < InstantLimit && b + 1 < a)
            && (r.Period? ==> (InWindow(r.w, ToMicros(dt)) <==> a <= ToMicros(dt) <= b))
  {
  }

  /** A single date given as both ends covers exactly that day. */
  lemma OneDayPeriod(iso: IsoParser, y: nat, m: nat, d: nat, dt: DateTime)
    requires IsoLawful(iso) && ValidDate(y, m, d) && Ordinal(Midnight(y, m, d)) < MaxOrdinal
    requires Valid(dt)
    ensures ReportPeriod(iso, DmyText(y, m, d), DmyText(y, m, d)).Period?
    ensures InWindow(ReportPeriod(iso, DmyText(y, m, d), DmyText(y, m, d)).w, ToMicros(dt))
            <==> dt.year == y && dt.month == m && dt.day == d
  {
    var day := Midnight(y, m, d);
    OneDayWindow(iso, y, m, d);
    SameDay(day, dt);
  }

  lemma OneDayWindow(iso: IsoParser, y: nat, m: nat, d: nat)
    requires IsoLawful(iso) && ValidDate(y, m, d) && Ordinal(Midnight(y, m, d)) < MaxOrdinal
    ensures ReportPeriod(iso, DmyText(y, m, d), DmyText(y, m, d))
            == Period(Window(ToMicros(Midnight(y, m, d)), ToMicros(Midnight(y, m, d)) + MicrosPerDay))
  {
    ParseDmyText(iso, y, m, d);
    DmyTextHasNoTime(y, m, d);
    DateOnlyPeriod(iso, DmyText(y, m, d), Midnight(y, m, d));
  }

  /** The same date-only text at both ends covers its whole day. */
  lemma DateOnlyPeriod(iso: IsoParser, t: string, day: DateTime)
    requires IsoLawful(iso) && Valid(day) && IsMidnight(day) && Ordinal(day) < MaxOrdinal
    requires ParseUserDateTime(iso, t) == Some(day) && !HasTime(t)
    ensures ReportPeriod(iso, t, t) == Period(Window(ToMicros(day), ToMicros(day) + MicrosPerDay))
  {
    assert StartOfDay(day) == day;
    MidnightStop(day);
  }

  /** A date-only end on any day but the last stops at the next midnight. */
  lemma MidnightStop(day: DateTime)
    requires Valid(day) && IsMidnight(day) && Ordinal(day) < MaxOrdinal
    ensures PeriodStop(day, false) == Some(ToMicros(day) + MicrosPerDay)
  {
    assert StartOfDay(day) == day;
  }

  lemma DmyTextHasNoTime(y: nat, m: nat, d: nat)
    ensures !HasTime(DmyText(y, m, d))
  {
    var t := DmyText(y, m, d);
    PadDigitsOnly(d, 2);
    PadDigitsOnly(m, 2);
    PadDigitsOnly(y, 4);
    assert forall i :: 0 <= i < |t| ==> t[i] != 'T' && t[i] != ':';
  }

  lemma PadDigitsOnly(n: nat, w: nat)
    ensures 'T' !in Pad(n, w) && ':' !in Pad(n, w)
  {
    var s := Pad(n, w);
    assert forall i :: 0 <= i < |s| ==> s[i] != 'T' && s[i] != ':';
  }

  /** An instant lies within the day starting at a midnight exactly when it
      has that midnight's date. */
  lemma SameDay(day: DateTime, dt: DateTime)
    requires Valid(day) && IsMidnight(day) && Valid(dt)
    ensures ToMicros(day) <= ToMicros(dt) < ToMicros(day) + MicrosPerDay
            <==> dt.year == day.year && dt.month == day.month && dt.day == day.day
  {
    var s := StartOfDay(dt);
    if ToMicros(day) <= ToMicros(dt) < ToMicros(day) + MicrosPerDay {
      assert Ordinal(s) == Ordinal(day) by {
        assert ToMicros(s) == Ordinal(s) * MicrosPerDay;
        assert ToMicros(day) == Ordinal(day) * MicrosPerDay;
        DayIndex(Ordinal(s), Ordinal(day), ToMicros(dt));
      }
      OrdinalInjective(s, day);
    }
  }

  /** Two day numbers whose days both contain an instant are equal. */
  lemma DayIndex(a: int, b: int, t: int)
    requires a * MicrosPerDay <= t < a * MicrosPerDay + MicrosPerDay
    requires b * MicrosPerDay <= t < b * MicrosPerDay + MicrosPerDay
    ensures a == b
  {

  }

  // ---------------------------------------------------------------------
  // Filtering and totals
  // ---------------------------------------------------------------------

  /** The record was registered inside the window; a record whose time
      cannot be read is left out. */
  predicate Inside(iso: IsoParser, w: Window, fs: Fields)
    requires IsoLawful(iso)
  {
    var ts := RecordTs(iso, fs);
    ts.Some? && InWindow(w, ToMicros(ts.value))
  }

  /** The loop that builds `filtered`, in record order. */
  function FilterWindow(iso: IsoParser, w: Window, rs: seq<Fields>): (r: seq<Fields>)
    requires IsoLawful(iso)
    ensures |r| <= |rs|
    ensures forall x :: x in r ==> x in rs && Inside(iso, w, x)
    ensures forall x :: x in rs && Inside(iso, w, x) ==> x in r
    ensures forall x :: multiset(r)[x] == if Inside(iso, w, x) then multiset(rs)[x] else 0
  {
    if |rs| == 0 then []
    else
      var rest := FilterWindow(iso, w, rs[1..]);
      assert rs == [rs[0]] + rs[1..];
      if Inside(iso, w, rs[0]) then [rs[0]] + rest else rest
  }

  /** The records whose officer converts to `o`. */
  function Arrests(rs: seq<Fields>, o: int): nat {
    if |rs| == 0 then 0
    else Arrests(rs[..|rs| - 1], o) + (if OfficerOf(rs[|rs| - 1]) == Some(o) then 1 else 0)
  }

  /** `int(r.get(key, 0) or 0)`, or 0 when that raises (the `try` around it). */
  function Amount(fs: Fields, key: string): int {
    IntOrZero(Get(fs, key, JInt(0))).GetOr(0)
  }

  /** The sum of one amount over the records. */
  function SumOf(rs: seq<Fields>, key: string): int {
    if |rs| == 0 then 0 else SumOf(rs[..|rs| - 1], key) + Amount(rs[|rs| - 1], key)
  }

  /** Totals over a run of records split in two are the sums of the parts. */
  lemma {:induction false} SumOfAppend(a: seq<Fields>, b: seq<Fields>, key: string)
    ensures SumOf(a + b, key) == SumOf(a, key) + SumOf(b, key)
  {
    if |b| > 0 {
      assert (a + b)[..|a + b| - 1] == a + b[..|b| - 1];
      SumOfAppend(a, b[..|b| - 1], key);
    } else {
      assert a + b == a;
    }
  }

  datatype Totals = Totals(byOfficer: Board, tempo: int, multa: int)

  /** The aggregation loop: arrests per non-zero officer (in order of first
      appearance), and the summed time and fine. Err is a non-numeric
      officer id, which nothing catches. */
  function Aggregate(rs: seq<Fields>): (r: Result<Totals, PyError>)
    ensures r.Ok? ==> Distinct(r.value.byOfficer) && PositiveCounts(r.value.byOfficer)
    ensures r.Ok? ==> 0 !in Officers(r.value.byOfficer)
    ensures r.Ok? ==> forall o :: o != 0 ==> CountOf(r.value.byOfficer, o) == Arrests(rs, o)
    ensures r.Ok? ==> Total(r.value.byOfficer) + Arrests(rs, 0) == |rs|
    ensures r.Ok? ==> r.value.tempo == SumOf(rs, "tempo") && r.value.multa == SumOf(rs, "multa")
  {
    if |rs| == 0 then Ok(Totals([], 0, 0))
    else
      match Aggregate(rs[..|rs| - 1])
      case Err(e) => Err(e)
      case Ok(t) =>
        var last := rs[|rs| - 1];
        match OfficerOf(last)
        case None => Err(ConversionError)
        case Some(oid) =>
          AddArrestSummarizes(rs, t, oid);
          Ok(AddArrest(t, last, oid))
  }

  /** What `Aggregate` promises about its totals, gathered in one place. */
  ghost predicate Summarizes(t: Totals, rs: seq<Fields>) {
    && Distinct(t.byOfficer) && PositiveCounts(t.byOfficer)
    && 0 !in Officers(t.byOfficer)
    && (forall o :: o != 0 ==> CountOf(t.byOfficer, o) == Arrests(rs, o))
    && Total(t.byOfficer) + Arrests(rs, 0) == |rs|
    && t.tempo == SumOf(rs, "tempo") && t.multa == SumOf(rs, "multa")
  }

  /** One pass of the aggregation loop over record `last`, whose officer is `oid`. */
  function AddArrest(t: Totals, last: Fields, oid: int): Totals {
    var board := if oid != 0 then Inc(t.byOfficer, oid) else t.byOfficer;
    Totals(board, t.tempo + Amount(last, "tempo"), t.multa + Amount(last, "multa"))
  }

  lemma AddArrestSummarizes(rs: seq<Fields>, t: Totals, oid: int)
    requires |rs| > 0 && Summarizes(t, rs[..|rs| - 1])
    requires OfficerOf(rs[|rs| - 1]) == Some(oid)
    ensures Summarizes(AddArrest(t, rs[|rs| - 1], oid), rs)
  {
    var last := rs[|rs| - 1];
    var n := AddArrest(t, last, oid);
    assert n.tempo == SumOf(rs, "tempo") && n.multa == SumOf(rs, "multa");
    assert Total(n.byOfficer) + Arrests(rs, 0) == |rs|;
    forall o | o != 0
      ensures CountOf(n.byOfficer, o) == Arrests(rs, o)
    {
    }
  }

  /** Officer `o` has an entry in `top`. */
  predicate Shown(top: Board, o: int) {
    exists e :: e in top && e.officer == o
  }

  /** `top` lists at most `n` officers of `rs` by arrests, largest first: each
      entry is a distinct non-zero officer with its number of arrests; an
      officer with arrests who is left out has no more than anyone listed; and
      when fewer than `n` are listed, nobody with arrests is left out. */
  ghost predicate RanksArrests(top: Board, rs: seq<Fields>, n: nat) {
    && |top| <= n && NonIncreasing(top)
    && (forall e :: e in top ==> e.officer != 0 && e.count == Arrests(rs, e.officer))
    && (forall i, j :: 0 <= i < j < |top| ==> top[i].officer != top[j].officer)
    && (forall o, x :: o != 0 && 0 < Arrests(rs, o) && !Shown(top, o) && x in top ==> Arrests(rs, o) <= x.count)
    && (|top| < n ==> forall o :: o != 0 && 0 < Arrests(rs, o) ==> Shown(top, o))
  }

  /** The first `n` entries of a board that counts the arrests of `rs`, as
      `Aggregate` builds it, rank those arrests. */
  lemma TopRanksArrests(rs: seq<Fields>, b: Board, n: nat)
    requires Distinct(b) && 0 !in Officers(b)
    requires forall o :: o != 0 ==> CountOf(b, o) == Arrests(rs, o)
    ensures RanksArrests(Top(b, n), rs, n)
  {
    var top := Top(b, n);
    ShownCounts(rs, b, top);
    ShownOnce(b, top);
    LeftOutNoMore(rs, b, top);
    if |top| < n {
      assert multiset(top) == multiset(b);
      NoneLeftOut(rs, b, top);
    }
  }

  lemma ShownCounts(rs: seq<Fields>, b: Board, top: Board)
    requires Distinct(b) && 0 !in Officers(b) && multiset(top) <= multiset(b)
    requires forall o :: o != 0 ==> CountOf(b, o) == Arrests(rs, o)
    ensures forall e :: e in top ==> e.officer != 0 && e.count == Arrests(rs, e.officer)
  {
    forall e | e in top
      ensures e.officer != 0 && e.count == Arrests(rs, e.officer)
    {
      assert e in multiset(b);
      EntryCount(b, e);
    }
  }

  lemma ShownOnce(b: Board, top: Board)
    requires Distinct(b) && multiset(top) <= multiset(b)
    ensures forall i, j :: 0 <= i < j < |top| ==> top[i].officer != top[j].officer
  {
    forall i, j | 0 <= i < j < |top|
      ensures top[i].officer != top[j].officer
    {
      OfficersDiffer(b, top, i, j);
    }
  }

  /** Two places of a sub-multiset of a board without repeated officers hold
      different officers. */
  lemma OfficersDiffer(b: Board, top: Board, i: int, j: int)
    requires Distinct(b) && multiset(top) <= multiset(b)
    requires 0 <= i < j < |top|
    ensures top[i].officer != top[j].officer
  {
    if top[i].officer == top[j].officer {
      var e := top[i];
      assert top[i] in multiset(b) && top[j] in multiset(b);
      EntryCount(b, top[i]);
      EntryCount(b, top[j]);
      assert top == top[..j] + top[j..];
      assert top[..j][i] == e && top[j..][0] == e;
      assert multiset(top)[e] == multiset(top[..j])[e] + multiset(top[j..])[e];
      DistinctOnce(b, e);
      assert false;
    }
  }

  lemma LeftOutNoMore(rs: seq<Fields>, b: Board, top: Board)
    requires forall o :: o != 0 ==> CountOf(b, o) == Arrests(rs, o)
    requires multiset(top) <= multiset(b)
    requires forall e, x :: e in multiset(b) - multiset(top) && x in top ==> e.count <= x.count
    ensures forall o, x :: o != 0 && 0 < Arrests(rs, o) && !Shown(top, o) && x in top ==> Arrests(rs, o) <= x.count
  {
    forall o, x | o != 0 && 0 < Arrests(rs, o) && !Shown(top, o) && x in top
      ensures Arrests(rs, o) <= x.count
    {
      CountedIsListed(b, o);
      var e := Entry(o, CountOf(b, o));
      assert e !in top;
      assert e in multiset(b) - multiset(top);
    }
  }

  lemma NoneLeftOut(rs: seq<Fields>, b: Board, top: Board)
    requires forall o :: o != 0 ==> CountOf(b, o) == Arrests(rs, o)
    requires multiset(top) == multiset(b)
    ensures forall o :: o != 0 && 0 < Arrests(rs, o) ==> Shown(top, o)
  {
    forall o | o != 0 && 0 < Arrests(rs, o)
      ensures Shown(top, o)
    {
      CountedIsListed(b, o);
      var e := Entry(o, CountOf(b, o));
      assert e in multiset(top);
      assert e in top;
    }
  }

  /** The aggregation fails exactly when some officer id is not a number. */
  lemma {:induction false} AggregateFails(rs: seq<Fields>)
    ensures Aggregate(rs).Err? <==> exists i :: 0 <= i < |rs| && OfficerOf(rs[i]).None?
  {
    if |rs| > 0 {
      var init := rs[..|rs| - 1];
      AggregateFails(init);
      if exists i :: 0 <= i < |init| && OfficerOf(init[i]).None? {
        var i :| 0 <= i < |init| && OfficerOf(init[i]).None?;
        assert rs[i] == init[i];
      }
      if exists i :: 0 <= i < |rs| && OfficerOf(rs[i]).None? {
        var i :| 0 <= i < |rs| && OfficerOf(rs[i]).None?;
        if i < |rs| - 1 {
          assert init[i] == rs[i];
        }
      }
    }
  }

  // ---------------------------------------------------------------------
  // The command
  // ---------------------------------------------------------------------

  datatype ReportOutcome =
    | NotAdmin
    | BadDates
    | EndsBeforeStart
    | BadDbChannel
    | NoArrests
    | Summary(total: nat, tempo: int, multa: int, top: Board)

  /** How many messages of the database channel the report reads. */
  const ReportHistoryLimit := 4000
  /** How many officers the report lists. */
  const ReportTopSize := 15

  /** `relatorio_periodo`; Err is an exception that escapes the command. */
  function PeriodReport(iso: IsoParser, c: JsonCodec, caller: Perm.Member, adminRoleIds: seq<int>,
                        inicio: string, fim: string, dbChannelOk: bool, history: seq<Message>)
    : (r: Result<ReportOutcome, PyError>)
    requires IsoLawful(iso)
    ensures r == Ok(NotAdmin) <==> !Perm.IsAdminMember(caller, adminRoleIds)
    ensures r.Ok? && r.value.Summary? ==>
      && r.value.total >= 1
      && |r.value.top| <= ReportTopSize
      && NonIncreasing(r.value.top)
    ensures r.Ok? && r.value.Summary? ==>
      && ReportPeriod(iso, inicio, fim).Period?
      && FetchRecords(c, history, ReportHistoryLimit).Ok?
      && r.value.total == |FilterWindow(iso, ReportPeriod(iso, inicio, fim).w, FetchRecords(c, history, ReportHistoryLimit).value)|
    ensures r.Ok? && r.value.Summary? ==>
      && ReportPeriod(iso, inicio, fim).Period?
      && FetchRecords(c, history, ReportHistoryLimit).Ok?
      && var inside := FilterWindow(iso, ReportPeriod(iso, inicio, fim).w, FetchRecords(c, history, ReportHistoryLimit).value);
         && r.value.tempo == SumOf(inside, "tempo")
         && r.value.multa == SumOf(inside, "multa")
         && RanksArrests(r.value.top, inside, ReportTopSize)
    ensures Perm.IsAdminMember(caller, adminRoleIds) ==>
      && (r == Ok(BadDates) <==> ReportPeriod(iso, inicio, fim) == BadDate)
      && (r == Ok(EndsBeforeStart) <==> ReportPeriod(iso, inicio, fim) == EndBeforeStart)
      && (ReportPeriod(iso, inicio, fim) == Overflow ==> r == Err(OverflowError))
      && (r == Ok(BadDbChannel) <==> ReportPeriod(iso, inicio, fim).Period? && !dbChannelOk)
    ensures Perm.IsAdminMember(caller, adminRoleIds) && ReportPeriod(iso, inicio, fim).Period? && dbChannelOk ==>
      match FetchRecords(c, history, ReportHistoryLimit)
      case Err(e) => r == Err(e)
      case Ok(rs) => r == SummarizeWindow(iso, ReportPeriod(iso, inicio, fim).w, rs)
  {
    if !Perm.IsAdminMember(caller, adminRoleIds) then Ok(NotAdmin)
    else
      match ReportPeriod(iso, inicio, fim)
      case BadDate => Ok(BadDates)
      case EndBeforeStart => Ok(EndsBeforeStart)
      case Overflow => Err(OverflowError)
      case Period(w) =>
        if !dbChannelOk then Ok(BadDbChannel)
        else
          match FetchRecords(c, history, ReportHistoryLimit)
          case Err(e) => Err(e)
          case Ok(rs) => SummarizeWindow(iso, w, rs)
  }

  /** The part of `relatorio_periodo` after the records are fetched: keep
      those inside the window, then total them. */
  function SummarizeWindow(iso: IsoParser, w: Window, rs: seq<Fields>): (r: Result<ReportOutcome, PyError>)
    requires IsoLawful(iso)
    ensures r == Ok(NoArrests) <==> |FilterWindow(iso, w, rs)| == 0
    ensures r.Err? ==> Aggregate(FilterWindow(iso, w, rs)).Err?
    ensures r.Ok? ==> r.value.NoArrests? || r.value.Summary?
    ensures r.Ok? && r.value.Summary? ==>
      && r.value.total == |FilterWindow(iso, w, rs)| >= 1
      && |r.value.top| <= ReportTopSize
      && NonIncreasing(r.value.top)
    ensures |FilterWindow(iso, w, rs)| > 0 && Aggregate(FilterWindow(iso, w, rs)).Err? ==> r.Err?
    ensures r.Ok? && r.value.Summary? ==>
      && r.value.tempo == SumOf(FilterWindow(iso, w, rs), "tempo")
      && r.value.multa == SumOf(FilterWindow(iso, w, rs), "multa")
      && RanksArrests(r.value.top, FilterWindow(iso, w, rs), ReportTopSize)
  {
    var inside := FilterWindow(iso, w, rs);
    if |inside| == 0 then Ok(NoArrests)
    else
      match Aggregate(inside)
      case Err(e) => Err(e)
      case Ok(t) =>
        TopRanksArrests(inside, t.byOfficer, ReportTopSize);
        Ok(Summary(|inside|, t.tempo, t.multa, Top(t.byOfficer, ReportTopSize)))
  }

  /** An arrest registered inside the period, among the messages the report
      reads, is never answered with "no arrests". */
  lemma RegisteredArrestIsReported(iso: IsoParser, c: JsonCodec, caller: Perm.Member, adminRoleIds: seq<int>,
                                   inicio: string, fim: string, history: seq<Message>, i: int,
                                   data: Submission, now: DateTime, officerId: int, officerTag: string,
                                   regChannelId: int, regMessageId: int)
    requires IsoLawful(iso) && Lawful(c) && Valid(now)
    requires Submit(data, now, officerId, officerTag, true, regChannelId, regMessageId).Registered?
    requires 0 <= i < |history| && i < ReportHistoryLimit
    requires history[i].content ==
      PackRecord(c, Submit(data, now, officerId, officerTag, true, regChannelId, regMessageId).record)
    requires ReportPeriod(iso, inicio, fim).Period?
    requires InWindow(ReportPeriod(iso, inicio, fim).w, ToMicros(now))
    ensures PeriodReport(iso, c, caller, adminRoleIds, inicio, fim, true, history) != Ok(NoArrests)
    ensures var r := PeriodReport(iso, c, caller, adminRoleIds, inicio, fim, true, history);
            Perm.IsAdminMember(caller, adminRoleIds) ==> r.Err? || (r.value.Summary? && r.value.total >= 1)
  {
    var w := ReportPeriod(iso, inicio, fim).w;
    var fetched := FetchRecords(c, history, ReportHistoryLimit);
    if fetched.Ok? {
      var tagged := ArrestIsFetched(iso, c, history, i, data, now, officerId, officerTag, regChannelId, regMessageId);
      assert Inside(iso, w, tagged);
      assert tagged in FilterWindow(iso, w, fetched.value);
    }
    NonEmptyWindowIsReported(iso, c, caller, adminRoleIds, inicio, fim, history);
  }

  /** The stored arrest is among the fetched records and reads back as the
      time it was registered at. */
  lemma ArrestIsFetched(iso: IsoParser, c: JsonCodec, history: seq<Message>, i: int,
                        data: Submission, now: DateTime, officerId: int, officerTag: string,
                        regChannelId: int, regMessageId: int) returns (tagged: Fields)
    requires IsoLawful(iso) && Lawful(c) && Valid(now)
    requires IsDigits(data.tempo) && IsDigits(data.multa)
    requires 0 <= i < |history| && i < ReportHistoryLimit
    requires history[i].content ==
      PackRecord(c, ArrestRecord(data, now, officerId, officerTag, regChannelId, regMessageId))
    requires FetchRecords(c, history, ReportHistoryLimit).Ok?
    ensures tagged in FetchRecords(c, history, ReportHistoryLimit).value
    ensures RecordTs(iso, tagged) == Some(now)
  {
    var rec := ArrestRecord(data, now, officerId, officerTag, regChannelId, regMessageId);
    var scanned := if ReportHistoryLimit < |history| then history[..ReportHistoryLimit] else history;
    assert scanned[i] == history[i];
    ArrestRecordFields(data, now, officerId, officerTag, regChannelId, regMessageId);
    ScanFindsPacked(c, scanned, i, rec);
    tagged := Tag(rec, history[i].id);
    ArrestReadsBack(iso, data, now, officerId, officerTag, regChannelId, regMessageId, history[i].id);
  }

  /** Once the period is valid and some fetched record falls inside it, the
      answer is a summary or an escaped exception. */
  lemma NonEmptyWindowIsReported(iso: IsoParser, c: JsonCodec, caller: Perm.Member, adminRoleIds: seq<int>,
                                 inicio: string, fim: string, history: seq<Message>)
    requires IsoLawful(iso)
    requires ReportPeriod(iso, inicio, fim).Period?
    requires FetchRecords(c, history, ReportHistoryLimit).Ok? ==>
      |FilterWindow(iso, ReportPeriod(iso, inicio, fim).w, FetchRecords(c, history, ReportHistoryLimit).value)| > 0
    ensures PeriodReport(iso, c, caller, adminRoleIds, inicio, fim, true, history) != Ok(NoArrests)
    ensures var r := PeriodReport(iso, c, caller, adminRoleIds, inicio, fim, true, history);
            Perm.IsAdminMember(caller, adminRoleIds) ==> r.Err? || (r.value.Summary? && r.value.total >= 1)
  {
  }
}

=== FILE: tickets.dfy ===
/** cogs/tickets.py: the per-channel ticket state and the pure rules around it.
    The state is a map `channel id -> TicketState`; every handler is one
    transition of that map, with the platform's answers and the current time
    `now` (whole seconds) passed in. */
module Tickets {
  import opened Wrappers
  import opened PyValues
  import opened Perm
  import opened Platform

  /** `{"opener_id", "admin_id", "last_user_ts", "last_admin_ts"}`; an
      `admin_id` of 0 means nobody has taken the ticket yet. */
  datatype TicketState = TicketState(openerId: int, adminId: int, lastUserTs: int, lastAdminTs: int)

  type TicketMap = map<int, TicketState>

  /** `ts2` is `ts` with the entry of `channel` set to `st` and nothing else changed. */
  predicate StoredOnly(ts: TicketMap, ts2: TicketMap, channel: int, st: TicketState) {
    && ts2.Keys == ts.Keys + {channel}
    && ts2[channel] == st
    && (forall c :: c in ts && c != channel ==> ts2[c] == ts[c])
  }

  // ---------------------------------------------------------------------
  // Channel names
  // ---------------------------------------------------------------------

  const MaxChannelName := 90

  /** `str.lower()` on one ASCII character. */
  function LowerAscii(c: char): (r: char)
    ensures !('A' <= r <= 'Z')
    ensures 'A' <= c <= 'Z' ==> r as int == c as int + 32
    ensures !('A' <= c <= 'Z') ==> r == c
  {
    if 'A' <= c <= 'Z' then (c as int + 32) as char else c
  }

  /** One character of `.lower().replace(" ", "-")`. */
  function SlugChar(c: char): char {
    if c == ' ' then '-' else LowerAscii(c)
  }

  function SlugAll(s: string): (r: string)
    ensures |r| == |s|
    ensures forall i :: 0 <= i < |s| ==> r[i] == SlugChar(s[i])
  {
    if |s| == 0 then "" else SlugAll(s[..|s| - 1]) + [SlugChar(s[|s| - 1])]
  }

  /** `s.lower().replace(" ", "-")[:90]` */
  function Slug(s: string): (r: string)
    ensures |r| == if |s| < MaxChannelName then |s| else MaxChannelName
    ensures forall i :: 0 <= i < |r| ==> r[i] == SlugChar(s[i])
  {
    var t := SlugAll(s);
    if |t| < MaxChannelName then t else t[..MaxChannelName]
  }

  /** The name of a new ticket channel, `f"{prefix}-{base}"` turned into a slug. */
  function ChannelName(prefix: string, base: string): (r: string)
    ensures |r| <= MaxChannelName
    ensures forall i :: 0 <= i < |r| ==> r[i] != ' ' && !('A' <= r[i] <= 'Z')
  {
    Slug(prefix + "-" + base)
  }

  /** Derived names keep the characters of the name they come from, lower-cased
      and with '-' for ' ', up to the length limit. */
  lemma ChannelNameFollowsSource(prefix: string, base: string)
    ensures |ChannelName(prefix, base)| == if |prefix| + 1 + |base| < MaxChannelName then |prefix| + 1 + |base| else MaxChannelName
    ensures forall i :: 0 <= i < |ChannelName(prefix, base)| && i < |prefix| ==>
              ChannelName(prefix, base)[i] == SlugChar(prefix[i])
    ensures |prefix| < MaxChannelName ==> ChannelName(prefix, base)[|prefix|] == '-'
  {
    var s := prefix + "-" + base;
    assert forall i :: 0 <= i < |prefix| ==> s[i] == prefix[i];
    assert s[|prefix|] == '-';
  }

  /** A name that is already a slug is left as it is. */
  lemma SlugIdempotent(s: string)
    ensures Slug(Slug(s)) == Slug(s)
  {
    var t := Slug(s);
    var u := Slug(t);
    assert |u| == |t|;
    forall i | 0 <= i < |t|
      ensures u[i] == t[i]
    {
      assert t[i] != ' ';
    }
  }

  // ---------------------------------------------------------------------
  // Opening a ticket
  // ---------------------------------------------------------------------

  /** `_can_create_channels(me)`, with `guild.me` possibly missing. */
  predicate CanCreateChannels(me: BotMember) {
    me.present && (me.manageChannels || me.isAdministrator)
  }

  /** The outcome of `guild.create_text_channel`. */
  datatype ChannelCreation = Created(channelId: int) | CreationRaised(error: PlatformError)

  /** What the opening handlers answer. `OpenRaised` is a creation error other
      than Forbidden, which the handlers do not catch. */
  datatype OpenReply =
    | NotAdmin
    | NoManageChannels
    | InvalidCategory
    | CreationForbidden
    | OpenRaised(error: PlatformError)
    | TicketOpened(channelId: int, name: string)

  datatype Opening = Opening(reply: OpenReply, tickets: TicketMap)

  /** The checks and the channel creation shared by both opening handlers:
      bot permission, then the category, then the creation. */
  function CreateTicket(ts: TicketMap, me: BotMember, categoryOk: bool, creation: ChannelCreation,
                        name: string, st: TicketState): (r: Opening)
    ensures r.reply.TicketOpened? <==> CanCreateChannels(me) && categoryOk && creation.Created?
    ensures !CanCreateChannels(me) ==> r.reply == NoManageChannels
    ensures CanCreateChannels(me) && !categoryOk ==> r.reply == InvalidCategory
    ensures CanCreateChannels(me) && categoryOk && creation == CreationRaised(Forbidden) ==>
              r.reply == CreationForbidden
    ensures r.reply.TicketOpened? ==>
              && r.reply == TicketOpened(creation.channelId, name)
              && StoredOnly(ts, r.tickets, creation.channelId, st)
    ensures !r.reply.TicketOpened? ==> r.tickets == ts
  {
    if !CanCreateChannels(me) then Opening(NoManageChannels, ts)
    else if !categoryOk then Opening(InvalidCategory, ts)
    else
      match creation
      case CreationRaised(Forbidden) => Opening(CreationForbidden, ts)
      case CreationRaised(e) => Opening(OpenRaised(e), ts)
      case Created(id) => Opening(TicketOpened(id, name), ts[id := st])
  }

  /** `open_ticket_channel`: a member opens a ticket of kind `kind`. */
  function OpenTicket(ts: TicketMap, me: BotMember, categoryOk: bool, creation: ChannelCreation,
                      kind: string, displayName: string, openerId: int, now: int): (r: Opening)
    ensures r.reply.TicketOpened? <==> CanCreateChannels(me) && categoryOk && creation.Created?
    ensures r.reply.TicketOpened? ==>
              && r.reply.name == ChannelName(kind, displayName)
              && r.reply.channelId in r.tickets
              && r.tickets[r.reply.channelId].openerId == openerId
              && r.tickets[r.reply.channelId].adminId == 0
              && r.tickets[r.reply.channelId].lastUserTs == now
              && r.tickets[r.reply.channelId].lastAdminTs == now
              && StoredOnly(ts, r.tickets, r.reply.channelId, r.tickets[r.reply.channelId])
    ensures !r.reply.TicketOpened? ==> r.tickets == ts
  {
    CreateTicket(ts, me, categoryOk, creation, ChannelName(kind, displayName),
                 TicketState(openerId, 0, now, now))
  }

  /** `open_alinhamento_ticket`: an admin opens a ticket about `targetId`. The
      target is recorded as the opener and the admin as already assigned.
      `targetName` is the target's display name when the member lookup found them. */
  function OpenAlinhamento(ts: TicketMap, caller: Member, callerId: int, adminRoleIds: seq<int>,
                           me: BotMember, categoryOk: bool, targetName: Option<string>,
                           creation: ChannelCreation, targetId: int, now: int): (r: Opening)
    ensures !IsAdminMember(caller, adminRoleIds) ==> r.reply == NotAdmin && r.tickets == ts
    ensures r.reply.TicketOpened? <==>
              IsAdminMember(caller, adminRoleIds) && CanCreateChannels(me) && categoryOk && creation.Created?
    ensures r.reply.TicketOpened? ==>
              && r.reply.name == ChannelName("alinhamento", targetName.GetOr(IntToString(targetId)))
              && r.reply.channelId in r.tickets
              && r.tickets[r.reply.channelId].openerId == targetId
              && r.tickets[r.reply.channelId].adminId == callerId
              && r.tickets[r.reply.channelId].lastUserTs == now
              && r.tickets[r.reply.channelId].lastAdminTs == now
              && StoredOnly(ts, r.tickets, r.reply.channelId, r.tickets[r.reply.channelId])
    ensures !r.reply.TicketOpened? ==> r.tickets == ts
  {
    if !IsAdminMember(caller, adminRoleIds) then Opening(NotAdmin, ts)
    else
      var name := ChannelName("alinhamento", targetName.GetOr(IntToString(targetId)));
      CreateTicket(ts, me, categoryOk, creation, name, TicketState(targetId, callerId, now, now))
  }

  // ---------------------------------------------------------------------
  // Taking a ticket
  // ---------------------------------------------------------------------

  /** `assign_ticket`: `admin_id` takes the ticket of `channel`; an untracked
      channel gets a fresh entry first. */
  function AssignTicket(ts: TicketMap, channel: int, openerId: int, adminId: int, now: int): (r: TicketMap)
    ensures r.Keys == ts.Keys + {channel}
    ensures r[channel].adminId == adminId
    ensures channel in ts ==>
              && r[channel].openerId == ts[channel].openerId
              && r[channel].lastUserTs == ts[channel].lastUserTs
              && r[channel].lastAdminTs == ts[channel].lastAdminTs
    ensures channel !in ts ==>
              r[channel].openerId == openerId && r[channel].lastUserTs == now && r[channel].lastAdminTs == now
    ensures forall c :: c in ts && c != channel ==> r[c] == ts[c]
  {
    var st := if channel in ts then ts[channel] else TicketState(openerId, 0, now, now);
    ts[channel := st.(adminId := adminId)]
  }

  /** Taking a ticket twice with the same admin is the same as taking it once. */
  lemma AssignIdempotent(ts: TicketMap, channel: int, openerId: int, adminId: int, now: int, later: int)
    ensures AssignTicket(AssignTicket(ts, channel, openerId, adminId, now), channel, openerId, adminId, later)
         == AssignTicket(ts, channel, openerId, adminId, now)
  {
  }

  // ---------------------------------------------------------------------
  // Messages
  // ---------------------------------------------------------------------

  /** The parts of an incoming message `on_message` reads. */
  datatype ChatMessage = ChatMessage(inGuild: bool, authorIsBot: bool, channel: int, authorId: int)

  /** Messages `on_message` returns on before touching the state. */
  predicate Ignored(ts: TicketMap, m: ChatMessage) {
    !m.inGuild || m.authorIsBot || m.channel !in ts
  }

  /** `on_message`: the assigned admin's message refreshes `last_admin_ts`;
      otherwise the opener's refreshes `last_user_ts`; nothing else changes. */
  function OnMessage(ts: TicketMap, m: ChatMessage, now: int): (r: TicketMap)
    ensures r.Keys == ts.Keys
    ensures forall c :: c in ts && c != m.channel ==> r[c] == ts[c]
    ensures forall c :: c in ts ==> r[c].openerId == ts[c].openerId && r[c].adminId == ts[c].adminId
    ensures Ignored(ts, m) ==> r == ts
    ensures !Ignored(ts, m) && m.authorId == ts[m.channel].adminId ==>
              r[m.channel].lastAdminTs == now && r[m.channel].lastUserTs == ts[m.channel].lastUserTs
    ensures !Ignored(ts, m) && m.authorId != ts[m.channel].adminId && m.authorId == ts[m.channel].openerId ==>
              r[m.channel].lastUserTs == now && r[m.channel].lastAdminTs == ts[m.channel].lastAdminTs
    ensures !Ignored(ts, m) && m.authorId != ts[m.channel].adminId && m.authorId != ts[m.channel].openerId ==>
              r == ts
  {
    if Ignored(ts, m) then ts
    else
      var st := ts[m.channel];
      if st.adminId == m.authorId then ts[m.channel := st.(lastAdminTs := now)]
      else if st.openerId == m.authorId then ts[m.channel := st.(lastUserTs := now)]
      else ts
  }

  /** Once an admin has taken a ticket, their next message there refreshes
      only the admin timestamp. */
  lemma AssignedAdminMessage(ts: TicketMap, channel: int, openerId: int, adminId: int, now: int, later: int)
    ensures var ts2 := AssignTicket(ts, channel, openerId, adminId, now);
            var ts3 := OnMessage(ts2, ChatMessage(true, false, channel, adminId), later);
            && ts3[channel].lastAdminTs == later
            && ts3[channel].lastUserTs == ts2[channel].lastUserTs
            && ts3[channel].adminId == adminId
  {
  }

  // ---------------------------------------------------------------------
  // Idle reminders
  // ---------------------------------------------------------------------

  function Min(a: int, b: int): int {
    if a <= b then a else b
  }

  /** The test one reminder pass applies to one entry. */
  predicate Due(st: TicketState, limit: int, now: int) {
    st.adminId != 0 && st.openerId != 0 && now - Min(st.lastUserTs, st.lastAdminTs) > limit
  }

  /** The state after a pass and the channels whose admin and opener were reminded. */
  datatype Pass = Pass(tickets: TicketMap, reminded: set<int>)

  /** One iteration of `reminder_loop` over the state, with the idle limit in
      seconds: a taken ticket idle on either side for more than `limit` gets
      both people reminded and both timestamps reset to `now`. */
  function ReminderPass(ts: TicketMap, limit: int, now: int): (r: Pass)
    ensures r.tickets.Keys == ts.Keys
    ensures forall c :: c in r.reminded <==>
              && c in ts
              && ts[c].adminId != 0 && ts[c].openerId != 0
              && (now - ts[c].lastUserTs > limit || now - ts[c].lastAdminTs > limit)
    ensures forall c :: c in ts ==> r.tickets[c].openerId == ts[c].openerId && r.tickets[c].adminId == ts[c].adminId
    ensures forall c :: c in r.reminded ==> r.tickets[c].lastUserTs == now && r.tickets[c].lastAdminTs == now
    ensures forall c :: c in ts && c !in r.reminded ==> r.tickets[c] == ts[c]
  {
    var due := set c | c in ts && Due(ts[c], limit, now);
    Pass(map c | c in ts :: if c in due then ts[c].(lastUserTs := now, lastAdminTs := now) else ts[c], due)
  }

  /** With a non-negative limit, a second pass at the same time reminds nobody
      and changes nothing. */
  lemma SecondPassQuiet(ts: TicketMap, limit: int, now: int)
    requires limit >= 0
    ensures ReminderPass(ReminderPass(ts, limit, now).tickets, limit, now) == Pass(ReminderPass(ts, limit, now).tickets, {})
  {
    var p := ReminderPass(ts, limit, now);
    var q := ReminderPass(p.tickets, limit, now);
    assert q.reminded == {};
    assert q.tickets == p.tickets;
  }

  /** A ticket nobody has taken is never reminded about. */
  lemma UntakenNeverReminded(ts: TicketMap, limit: int, now: int, c: int)
    requires c in ts && ts[c].adminId == 0
    ensures c !in ReminderPass(ts, limit, now).reminded
    ensures ReminderPass(ts, limit, now).tickets[c] == ts[c]
  {
  }

  /** `reminder_loop`: nothing without the guild; otherwise the limit is
      `int(tickets.get("notify_after_minutes", 60)) * 60`, whose errors escape. */
  function ReminderLoop(ts: TicketMap, guildPresent: bool, ticketsCfg: Json, now: int): (r: Result<Pass, PyError>)
    ensures !guildPresent ==> r == Ok(Pass(ts, {}))
    ensures guildPresent && !ticketsCfg.JObj? ==> r == Err(AttributeError)
    ensures guildPresent && ticketsCfg.JObj? && Find(ticketsCfg.fields, "notify_after_minutes").None? ==>
              r == Ok(ReminderPass(ts, 3600, now))
    ensures r.Err? ==> guildPresent
    ensures r.Ok? && guildPresent ==>
              exists m :: PyInt(Get(ticketsCfg.fields, "notify_after_minutes", JInt(60))) == Some(m)
                       && r.value == ReminderPass(ts, m * 60, now)
  {
    if !guildPresent then Ok(Pass(ts, {}))
    else if !ticketsCfg.JObj? then Err(AttributeError)
    else
      match PyInt(Get(ticketsCfg.fields, "notify_after_minutes", JInt(60)))
      case None => Err(ConversionError)
      case Some(m) => Ok(ReminderPass(ts, m * 60, now))
  }

  // ---------------------------------------------------------------------
  // Closing
  // ---------------------------------------------------------------------

  /** `notify_user`: user id 0 is nobody, so no message is sent. */
  function Notify(userId: int): (r: seq<int>)
    ensures 0 !in r
    ensures userId != 0 ==> r == [userId]
  {
    if userId == 0 then [] else [userId]
  }

  datatype CloseReply = InvalidChannel | Closed(notified: seq<int>)

  datatype Closing = Closing(reply: CloseReply, tickets: TicketMap)

  /** `close_ticket`: outside a text channel nothing happens; otherwise the
      opener, then the admin, are notified when set, and the entry is popped. */
  function CloseTicket(ts: TicketMap, isTextChannel: bool, channel: int): (r: Closing)
    ensures !isTextChannel ==> r == Closing(InvalidChannel, ts)
    ensures isTextChannel ==> r.reply.Closed?
    ensures isTextChannel ==> r.tickets.Keys == ts.Keys - {channel}
    ensures forall c :: c in r.tickets ==> c in ts && r.tickets[c] == ts[c]
    ensures r.reply.Closed? ==>
              && |r.reply.notified| <= 2
              && (forall u :: u in r.reply.notified <==>
                    u != 0 && channel in ts && (u == ts[channel].openerId || u == ts[channel].adminId))
              && (|r.reply.notified| == 2 ==>
                    channel in ts && r.reply.notified == [ts[channel].openerId, ts[channel].adminId])
    ensures isTextChannel && channel in ts ==>
              |r.reply.notified| == (if ts[channel].openerId != 0 then 1 else 0)
                                    + (if ts[channel].adminId != 0 then 1 else 0)
    ensures isTextChannel && channel !in ts ==> r.reply.notified == []
  {
    if !isTextChannel then Closing(InvalidChannel, ts)
    else
      var st := if channel in ts then ts[channel] else TicketState(0, 0, 0, 0);
      Closing(Closed(Notify(st.openerId) + Notify(st.adminId)), ts - {channel})
  }

  /** Closing a freshly opened ticket gives back the state from before it was
      opened, and notifies exactly its opener. */
  lemma CloseUndoesOpen(ts: TicketMap, me: BotMember, categoryOk: bool, creation: ChannelCreation,
                        kind: string, displayName: string, openerId: int, now: int)
    requires creation.Created? && creation.channelId !in ts
    requires OpenTicket(ts, me, categoryOk, creation, kind, displayName, openerId, now).reply.TicketOpened?
    ensures var afterOpen := OpenTicket(ts, me, categoryOk, creation, kind, displayName, openerId, now).tickets;
            var closing := CloseTicket(afterOpen, true, creation.channelId);
            closing.tickets == ts && closing.reply == Closed(Notify(openerId))
  {
    var afterOpen := OpenTicket(ts, me, categoryOk, creation, kind, displayName, openerId, now).tickets;
    assert afterOpen == ts[creation.channelId := TicketState(openerId, 0, now, now)];
    assert afterOpen - {creation.channelId} == ts;
  }

  // ---------------------------------------------------------------------
  // Mute toggle
  // ---------------------------------------------------------------------

  /** A permission overwrite's three settings; None leaves the permission
      inherited. */
  datatype Overwrite = Overwrite(viewChannel: Option<bool>, sendMessages: Option<bool>, readHistory: Option<bool>)

  /** `ow.send_messages is False` */
  predicate Muted(ow: Overwrite) {
    ow.sendMessages == Some(false)
  }

  /** `toggle_mute` on the opener's overwrite. */
  function ToggleMute(ow: Overwrite): (r: Overwrite)
    ensures r.viewChannel == Some(true) && r.readHistory == Some(true)
    ensures r.sendMessages.Some?
    ensures Muted(r) <==> !Muted(ow)
  {
    Overwrite(Some(true), Some(Muted(ow)), Some(true))
  }

  /** After the first toggle, toggling twice gives back the same overwrite. */
  lemma ToggleTwice(ow: Overwrite)
    ensures ToggleMute(ToggleMute(ToggleMute(ow))) == ToggleMute(ow)
  {
  }

  // ---------------------------------------------------------------------
  // Exoneration
  // ---------------------------------------------------------------------

  /** The bot may kick when its member is known and holds Kick Members or
      Administrator. */
  predicate CanKick(me: BotMember) {
    me.present && (me.canKick || me.isAdministrator)
  }

  /** The detail the `except` clauses of `approve_exoneracao` record. */
  function ExoneracaoErrorDetail(e: PlatformError): (r: string)
    ensures |r| > 0 && r != "OK"
  {
    match e
    case NotFound => "Membro não encontrado no servidor"
    case Forbidden => "Forbidden (permissão/hierarquia)"
    case OtherError(n) => "Erro: " + n
  }

  /** The kick decision: whether it succeeded, the detail ("" on success), and
      the member id the kick was attempted on. */
  datatype KickAttempt = KickAttempt(removed: bool, detail: string, kicked: Option<int>)

  function ExoneracaoKick(target: int, me: BotMember, lookup: MemberLookup, kick: CallResult): (r: KickAttempt)
    ensures r.kicked.Some? ==> r.kicked.value == target
    ensures r.removed <==> r.kicked.Some? && kick.Done?
    ensures r.removed <==> r.detail == ""
    ensures r.kicked.Some? <==>
              && CanKick(me) && target != 0 && lookup.Found?
              && (me.isAdministrator || me.topRole > lookup.topRole)
  {
    if !CanKick(me) then KickAttempt(false, "Bot sem permissão Kick Members", None)
    else if target == 0 then KickAttempt(false, "Solicitante inválido (ID 0)", None)
    else
      match lookup
      case LookupRaised(e) => KickAttempt(false, ExoneracaoErrorDetail(e), None)
      case Found(topRole) =>
        if me.topRole <= topRole && !me.isAdministrator then
          KickAttempt(false, "Hierarquia: cargo do bot abaixo/igual ao cargo do membro", None)
        else
          match kick
          case Done => KickAttempt(true, "", Some(target))
          case Raised(e) => KickAttempt(false, ExoneracaoErrorDetail(e), Some(target))
  }

  /** `approve_exoneracao`'s answer: `(removed, detail or "OK")`, whom the kick
      was attempted on, and who was sent a message. */
  datatype Exoneration = Exoneration(removed: bool, detail: string, kicked: Option<int>, notified: seq<int>)

  /** `int(payload.get("solicitante_id", 0))`; an error escapes. */
  function Solicitante(payload: Fields): Option<int> {
    PyInt(Get(payload, "solicitante_id", JInt(0)))
  }

  /** `approve_exoneracao`: the member removed is always the requester
      (`solicitante_id`); the in-game `id` field plays no part. */
  function ApproveExoneracao(payload: Fields, me: BotMember, lookup: MemberLookup, kick: CallResult)
    : (r: Result<Exoneration, PyError>)
    ensures r.Err? <==> Solicitante(payload).None?
    ensures r.Ok? ==>
              && r.value.detail != ""
              && (r.value.removed <==> r.value.detail == "OK")
              && (r.value.removed ==> lookup.Found? && kick.Done?)
              && (r.value.kicked.Some? <==>
                    && CanKick(me) && Solicitante(payload).value != 0 && lookup.Found?
                    && (me.isAdministrator || me.topRole > lookup.topRole))
              && (r.value.removed <==> r.value.kicked.Some? && kick.Done?)
              && (r.value.kicked.Some? ==> r.value.kicked.value == Solicitante(payload).value && r.value.kicked.value != 0)
              && r.value.notified == Notify(Solicitante(payload).value)
  {
    match Solicitante(payload)
    case None => Err(ConversionError)
    case Some(target) =>
      var k := ExoneracaoKick(target, me, lookup, kick);
      Ok(Exoneration(k.removed, if k.detail == "" then "OK" else k.detail, k.kicked, Notify(target)))
  }

  /** The in-game `id` field never affects the decision or whom it affects. */
  lemma GameIdIgnored(payload: Fields, v: Json, me: BotMember, lookup: MemberLookup, kick: CallResult)
    ensures ApproveExoneracao(Set(payload, "id", v), me, lookup, kick) == ApproveExoneracao(payload, me, lookup, kick)
  {
    assert Find(Set(payload, "id", v), "solicitante_id") == Find(payload, "solicitante_id");
  }

  /** A requester the bot outranks is removed exactly when the kick call succeeds. */
  lemma ExoneracaoRemovesWhenKickSucceeds(payload: Fields, me: BotMember, topRole: int, kick: CallResult)
    requires Solicitante(payload).Some? && Solicitante(payload).value != 0
    requires CanKick(me) && me.topRole > topRole
    ensures ApproveExoneracao(payload, me, Found(topRole), kick).Ok?
    ensures ApproveExoneracao(payload, me, Found(topRole), kick).value.removed <==> kick.Done?
    ensures ApproveExoneracao(payload, me, Found(topRole), kick).value.kicked == Solicitante(payload)
  {
  }
}

=== FILE: timeutils.dfy ===
/** The calendar truncations of utils/timeutils.py and its lenient ISO parser.
    `datetime.fromisoformat` itself is not modelled: it is a parameter, and
    `IsoLawful` lists the few facts about it the bot relies on. */
module TimeUtils {
  import opened Wrappers
  import opened Civil
  import opened PyValues

  // ---------------------------------------------------------------------
  // Truncations
  // ---------------------------------------------------------------------

  /** `dt.replace(hour=0, minute=0, second=0, microsecond=0)` */
  function StartOfDay(dt: DateTime): (r: DateTime)
    requires Valid(dt)
    ensures Valid(r) && IsMidnight(r)
    ensures r.year == dt.year && r.month == dt.month && r.day == dt.day
    ensures ToMicros(r) <= ToMicros(dt) < ToMicros(r) + MicrosPerDay
  {
    dt.(hour := 0, minute := 0, second := 0, micro := 0)
  }

  /** `start_of_day(dt) - timedelta(days=weekday)`: the Monday that opens the week. */
  function StartOfWeek(dt: DateTime): (r: DateTime)
    requires Valid(dt)
    ensures Valid(r) && IsMidnight(r)
    ensures Weekday(r) == 0
    ensures Ordinal(dt) - 6 <= Ordinal(r) <= Ordinal(dt)
    ensures ToMicros(r) <= ToMicros(StartOfDay(dt))
  {
    var sod := StartOfDay(dt);
    var n := Ordinal(sod);
    var wd := Weekday(sod);
    OrdinalInYear(sod);
    WeekdayBack(n, wd, n - wd);
    var r := FromOrdinal(n - wd);
    WeekdayBack(n, wd, Ordinal(r));
    r
  }

  /** Going back `weekday` days from ordinal `n` stays at or after day 1 and lands on a Monday. */
  lemma WeekdayBack(n: int, wd: int, o: int)
    requires n >= 1 && wd == (n + 6) % 7 && o == n - wd
    ensures 0 <= wd <= n - 1
    ensures (o + 6) % 7 == 0
  {
    var q := (n - 1) / 7;
    var r := (n - 1) % 7;
    assert n - 1 == 7 * q + r;
    assert n + 6 == 7 * (q + 1) + r;
    assert o + 6 == 7 * (q + 1);
  }

  /** Two distinct Mondays are at least a week apart. */
  lemma MondaysApart(a: int, b: int)
    requires (a + 6) % 7 == 0 && (b + 6) % 7 == 0 && a < b
    ensures b - a >= 7
  {
    var qa := (a + 6) / 7;
    var qb := (b + 6) / 7;
    assert a + 6 == 7 * qa && b + 6 == 7 * qb;
    assert qa < qb;
  }

  /** `dt.replace(day=1, hour=0, minute=0, second=0, microsecond=0)` */
  function StartOfMonth(dt: DateTime): (r: DateTime)
    requires Valid(dt)
    ensures Valid(r) && IsMidnight(r) && r.day == 1
    ensures r.year == dt.year && r.month == dt.month
    ensures ToMicros(r) <= ToMicros(StartOfDay(dt))
  {
    dt.(day := 1, hour := 0, minute := 0, second := 0, micro := 0)
  }

  /** `dt.replace(month=1, day=1, hour=0, minute=0, second=0, microsecond=0)` */
  function StartOfYear(dt: DateTime): (r: DateTime)
    requires Valid(dt)
    ensures Valid(r) && IsMidnight(r) && r.month == 1 && r.day == 1
    ensures r.year == dt.year
    ensures ToMicros(r) <= ToMicros(StartOfMonth(dt))
  {
    DaysBeforeMonthMonotone(dt.year, 1, dt.month);
    dt.(month := 1, day := 1, hour := 0, minute := 0, second := 0, micro := 0)
  }

  /** The truncations nest: year <= month <= day, week <= day, day <= dt. */
  lemma TruncationsOrdered(dt: DateTime)
    requires Valid(dt)
    ensures ToMicros(StartOfYear(dt)) <= ToMicros(StartOfMonth(dt))
            <= ToMicros(StartOfDay(dt)) <= ToMicros(dt)
    ensures ToMicros(StartOfWeek(dt)) <= ToMicros(StartOfDay(dt))
  {
  }

  lemma StartOfDayIdempotent(dt: DateTime)
    requires Valid(dt)
    ensures StartOfDay(StartOfDay(dt)) == StartOfDay(dt)
  {
  }

  /** Truncating a Monday midnight to its week leaves it alone, so
      `start_of_week` applied twice equals applied once. */
  lemma StartOfWeekIdempotent(dt: DateTime)
    requires Valid(dt)
    ensures StartOfWeek(StartOfWeek(dt)) == StartOfWeek(dt)
  {
    MondayIsItsWeek(StartOfWeek(dt));
  }

  /** A Monday midnight opens its own week. */
  lemma MondayIsItsWeek(w: DateTime)
    requires Valid(w) && IsMidnight(w) && Weekday(w) == 0
    ensures StartOfWeek(w) == w
  {
    assert StartOfDay(w) == w;
    FromOrdinalOfOrdinal(w);
  }

  lemma StartOfMonthIdempotent(dt: DateTime)
    requires Valid(dt)
    ensures StartOfMonth(StartOfMonth(dt)) == StartOfMonth(dt)
  {
  }

  lemma StartOfYearIdempotent(dt: DateTime)
    requires Valid(dt)
    ensures StartOfYear(StartOfYear(dt)) == StartOfYear(dt)
  {
  }

  /** A midnight not after `dt` falls on `dt`'s day or earlier. */
  lemma MidnightNotAfter(m: DateTime, dt: DateTime)
    requires Valid(m) && Valid(dt) && IsMidnight(m)
    requires ToMicros(m) <= ToMicros(dt)
    ensures Ordinal(m) <= Ordinal(dt)
  {
  }

  /** Midnights are ordered as their days are. */
  lemma MidnightOrder(a: DateTime, b: DateTime)
    requires Valid(a) && Valid(b) && IsMidnight(a) && IsMidnight(b)
    requires Ordinal(a) <= Ordinal(b)
    ensures ToMicros(a) <= ToMicros(b)
  {
  }

  /** The week start is the latest Monday midnight not after `dt`. */
  lemma StartOfWeekIsLatestMonday(dt: DateTime, m: DateTime)
    requires Valid(dt) && Valid(m) && IsMidnight(m) && Weekday(m) == 0
    requires ToMicros(m) <= ToMicros(dt)
    ensures ToMicros(m) <= ToMicros(StartOfWeek(dt))
  {
    MondayNotAfter(dt, m, StartOfWeek(dt));
  }

  /** A Monday midnight `m` not after `dt` is not after a Monday midnight `w`
      of `dt`'s last seven days. */
  lemma MondayNotAfter(dt: DateTime, m: DateTime, w: DateTime)
    requires Valid(dt) && Valid(m) && Valid(w) && IsMidnight(m) && IsMidnight(w)
    requires Weekday(m) == 0 && Weekday(w) == 0
    requires Ordinal(dt) - 6 <= Ordinal(w) <= Ordinal(dt)
    requires ToMicros(m) <= ToMicros(dt)
    ensures ToMicros(m) <= ToMicros(w)
  {
    MidnightNotAfter(m, dt);
    LatestMondayOrdinal(Ordinal(dt), Ordinal(w), Ordinal(m));
    MidnightOrder(m, w);
  }

  /** On ordinals: a Monday `om` not after day `od` is not after the Monday
      `ow` that opens `od`'s week. */
  lemma LatestMondayOrdinal(od: int, ow: int, om: int)
    requires od - 6 <= ow <= od && om <= od
    requires (ow + 6) % 7 == 0 && (om + 6) % 7 == 0
    ensures om <= ow
  {
    if om > ow {
      MondaysApart(ow, om);
    }
  }

  // ---------------------------------------------------------------------
  // ISO parsing
  // ---------------------------------------------------------------------

  /** `s.replace("Z", "+00:00")` */
  function ReplaceZ(s: string): (r: string)
    ensures 'Z' !in r
    ensures 'Z' !in s ==> r == s
    ensures |r| >= |s|
  {
    if |s| == 0 then ""
    else (if s[0] == 'Z' then "+00:00" else [s[0]]) + ReplaceZ(s[1..])
  }

  /** `datetime.fromisoformat`, given from outside the model. */
  type IsoParser = string -> Option<DateTime>

  /** `parse_iso`: parse directly, and only on failure retry with every `Z`
      written as `+00:00`. */
  function ParseIso(iso: IsoParser, s: string): (r: Option<DateTime>)
    ensures iso(s).Some? ==> r == iso(s)
    ensures iso(s).None? ==> r == iso(ReplaceZ(s))
    ensures 'Z' !in s ==> r == iso(s)
  {
    match iso(s)
    case Some(dt) => Some(dt)
    case None => iso(ReplaceZ(s))
  }

  /** `YYYY-MM-DD`: four digits, dash, two digits, dash, two digits. */
  predicate IsYmdShape(s: string) {
    |s| == 10 && s[4] == '-' && s[7] == '-'
    && IsDigits(s[..4]) && IsDigits(s[5..7]) && IsDigits(s[8..])
  }

  /** `DD/MM/YYYY` */
  predicate IsDmyShape(s: string) {
    |s| == 10 && s[2] == '/' && s[5] == '/'
    && IsDigits(s[..2]) && IsDigits(s[3..5]) && IsDigits(s[6..])
  }

  /** `datetime(y, m, d)`: midnight of a valid date, None is the ValueError. */
  function DateOf(y: int, m: int, d: int): (r: Option<DateTime>)
    ensures r.Some? <==> ValidDate(y, m, d)
    ensures r.Some? ==> r.value == Midnight(y, m, d) && Valid(r.value)
  {
    if ValidDate(y, m, d) then Some(Midnight(y, m, d)) else None
  }

  function YmdDate(s: string): Option<DateTime>
    requires IsYmdShape(s)
  {
    DateOf(DigitsValue(s[..4]), DigitsValue(s[5..7]), DigitsValue(s[8..]))
  }

  function DmyDate(s: string): Option<DateTime>
    requires IsDmyShape(s)
  {
    DateOf(DigitsValue(s[6..]), DigitsValue(s[3..5]), DigitsValue(s[..2]))
  }

  /** `f"{n:0{w}d}"` for `0 <= n < 10^w` */
  function Pad(n: nat, w: nat): (s: string)
    ensures |s| == w
    ensures forall i :: 0 <= i < |s| ==> IsDigit(s[i])
  {
    if w == 0 then "" else Pad(n / 10, w - 1) + [DigitChar(n % 10)]
  }

  function Pow10(w: nat): (p: nat)
    ensures p >= 1
  {
    if w == 0 then 1 else 10 * Pow10(w - 1)
  }

  /** Zero-padding is read back as the number it pads. */
  lemma {:induction false} PadValue(n: nat, w: nat)
    requires n < Pow10(w)
    ensures DigitsValue(Pad(n, w)) == n
  {
    if w > 0 {
      PadValue(n / 10, w - 1);
      var s := Pad(n, w);
      assert s[..|s| - 1] == Pad(n / 10, w - 1);
    }
  }

  /** `dt.isoformat()` of an aware UTC datetime: microseconds appear only when
      they are not zero. */
  function IsoFormat(dt: DateTime): (s: string)
    requires Valid(dt)
    ensures |s| > 10 && s[10] == 'T'
  {
    Pad(dt.year, 4) + "-" + Pad(dt.month, 2) + "-" + Pad(dt.day, 2)
    + "T" + Pad(dt.hour, 2) + ":" + Pad(dt.minute, 2) + ":" + Pad(dt.second, 2)
    + (if dt.micro != 0 then "." + Pad(dt.micro, 6) else "")
    + "+00:00"
  }

  lemma PadHasNoZ(n: nat, w: nat)
    ensures 'Z' !in Pad(n, w)
  {
    var s := Pad(n, w);
    assert forall i :: 0 <= i < |s| ==> s[i] != 'Z';
  }

  lemma NoZCat(a: string, b: string)
    requires 'Z' !in a && 'Z' !in b
    ensures 'Z' !in a + b
  {
    assert forall i :: 0 <= i < |a + b| ==> (a + b)[i] == if i < |a| then a[i] else b[i - |a|];
  }

  /** `isoformat()` never writes a `Z`, so `parse_iso` reads its text directly. */
  lemma IsoFormatHasNoZ(dt: DateTime)
    requires Valid(dt)
    ensures 'Z' !in IsoFormat(dt)
  {
    PadHasNoZ(dt.year, 4);
    PadHasNoZ(dt.month, 2);
    PadHasNoZ(dt.day, 2);
    PadHasNoZ(dt.hour, 2);
    PadHasNoZ(dt.minute, 2);
    PadHasNoZ(dt.second, 2);
    PadHasNoZ(dt.micro, 6);
    var s := Pad(dt.year, 4);
    NoZCat(s, "-");
    s := s + "-";
    NoZCat(s, Pad(dt.month, 2));
    s := s + Pad(dt.month, 2);
    NoZCat(s, "-");
    s := s + "-";
    NoZCat(s, Pad(dt.day, 2));
    s := s + Pad(dt.day, 2);
    NoZCat(s, "T");
    s := s + "T";
    NoZCat(s, Pad(dt.hour, 2));
    s := s + Pad(dt.hour, 2);
    NoZCat(s, ":");
    s := s + ":";
    NoZCat(s, Pad(dt.minute, 2));
    s := s + Pad(dt.minute, 2);
    NoZCat(s, ":");
    s := s + ":";
    NoZCat(s, Pad(dt.second, 2));
    s := s + Pad(dt.second, 2);
    var frac := if dt.micro != 0 then "." + Pad(dt.micro, 6) else "";
    NoZCat(".", Pad(dt.micro, 6));
    NoZCat(s, frac);
    s := s + frac;
    NoZCat(s, "+00:00");
  }

  /** What the model assumes of `datetime.fromisoformat` (Python 3.11 and
      later): it rejects the empty string and any text with a `/`, reads a
      `YYYY-MM-DD` text as that date's midnight (rejecting an impossible
      date), and reads back what `isoformat()` wrote. */
  ghost predicate IsoLawful(iso: IsoParser) {
    && iso("").None?
    && (forall s {:trigger HasSlash(s)} :: HasSlash(s) ==> iso(s).None?)
    && (forall s {:trigger IsYmdShape(s)} :: IsYmdShape(s) ==> iso(s) == YmdDate(s))
    && (forall dt {:trigger IsoFormat(dt)} :: Valid(dt) ==> iso(IsoFormat(dt)) == Some(dt))
    && (forall s :: iso(s).Some? ==> Valid(iso(s).value))
  }

  predicate HasSlash(s: string) {
    '/' in s
  }
}

=== FILE: wrappers.dfy ===
/** Option and Result, the failure-carrying values every module returns
    where the bot answers with an error message or a Python exception escapes. */
module Wrappers {

  datatype Option<+T> = None | Some(value: T) {

    /** The wrapped value, or a default when there is none. */
    function GetOr(default: T): T {
      match this
      case Some(v) => v
      case None => default
    }
  }

  datatype Result<+R, +E> = Ok(value: R) | Err(error: E)
}
